=== FILE: README.md ===
# Bytebase frontend stores, modelled in Dafny

This project models four pieces of client-side logic from the Bytebase web
console. They are Vue/Pinia stores and composables that sit over a gRPC backend:

- **Recent projects** (`useRecentProjects`). This is a per-user, most-recent-first
  list of at most five project names. It comes with a derived view that resolves
  the names to projects the user may still see.
- **Instance store** (`useInstanceV1Store`, `useInstanceV1List`). This is a map
  from instance name to composed instance, kept in JavaScript `Map` insertion
  order. It covers:
  - upsert, where the last write wins;
  - lookup with an unknown-instance fallback, and get-or-fetch;
  - reset;
  - the active list and the activation count;
  - archive and restore;
  - the list-cache entry that drives list fetching;
  - the watcher and `ready` flag of the list composable.
- **Experimental issue store.** This covers `composeIssue`, a permission-gated
  decision about which optional plan and rollout fields are fetched, and its
  shallow variant. It also covers the sentinel dispatch of the two fetch
  functions, and the plan → issue → rollout creation sequence with its hooks.
- **Filter store.** This is the one-shot initialisation of the global filter from
  the route query.

Every store is a pure function over immutable datatypes, and a mutation returns
the new store. Four kinds of collaborators are function-valued parameters that
the model treats as uninterpreted oracles:

- the remote calls;
- the permission check `hasProjectPermissionV2`;
- the `extract*ResourceName` helpers, `isValidProjectName` and `JSON.parse`;
- the project, user and environment stores.

A remote call that can reject returns a `Result`. The rejections the model does
not follow are named under "Left out".

Files:

| file | contents |
|---|---|
| `wrappers.dfy` | `Option`, `Result`, `Outcome` |
| `sequences.dfy` | duplicate-freedom, subsequences, `findIndex` and `splice` on sequences |
| `resources.dfy` | projects, users, permissions and the shared sentinel ids |
| `recent_projects.dfy` | `setRecentProject` and `recentViewProjects` |
| `instance_store.dfy` | the instance store and `listInstances` |
| `instance_list.dfy` | `useInstanceV1List` |
| `experimental_issue.dfy` | `composeIssue`, `shallowComposeIssue` and the two fetch functions |
| `issue_creation.dfy` | `experimentalCreateIssueByPlan` |
| `filter_store.dfy` | the initial filter of `useFilterStore` |

Two details of the source that the model keeps:

- `listInstances` returns only the instances composed by this call, not every
  stored instance (`frontend/src/store/modules/v1/instance.ts:64-69`).
- `getOrFetchInstanceByName` reads the store back by the *requested* name after
  fetching (`frontend/src/store/modules/v1/instance.ts:135-136`). A server
  answer stored under another name yields the unknown sentinel.

## Model

| member | source | states |
|---|---|---|
| RecentProjects.SetRecentProject | frontend/src/components/Project/useRecentProjects.ts:17-32 | The empty name leaves the list unchanged. Otherwise the name is at index 0. A list of at most five entries stays at most five. A duplicate-free list stays duplicate-free. No entry other than the name appears. |
| RecentProjects.SetRecentProjectKeepsOrder | frontend/src/components/Project/useRecentProjects.ts:21-31 | The entries after the head are a subsequence of the old list, so the other names keep their relative order. |
| RecentProjects.SetRecentProjectEvictsOnlyTail | frontend/src/components/Project/useRecentProjects.ts:25-31 | On a list within the bound, every other entry survives. The only exception is the old last entry, when the list was full and did not already hold the name. |
| RecentProjects.SetRecentProjectHeadIdempotent | frontend/src/components/Project/useRecentProjects.ts:21-28 | Re-adding the current head leaves a list within the bound unchanged. |
| RecentProjects.SetRecentProjectIsMostRecentFirst | frontend/src/components/Project/useRecentProjects.ts:17-32 | On a well-formed list, splice, unshift and pop equal an independent reference: the name, then every other entry in order, cut to five. |
| RecentProjects.RecordAllWellFormed | frontend/src/components/Project/useRecentProjects.ts:6-32 | Any history of visits keeps the stored list bounded and duplicate-free, and the latest non-empty visit is at the front. |
| RecentProjects.RecentViewProjects | frontend/src/components/Project/useRecentProjects.ts:34-44 | Every result is a project with a valid name and `bb.projects.get`. The result is an order-preserving subsequence of the looked-up names, and every viewable looked-up project is in it. The stored list is an input only. |
| RecentProjects.RecentViewProjectsKeepsCopies | frontend/src/components/Project/useRecentProjects.ts:34-44 | `.filter` keeps copies: each viewable project occurs in the result as often as among the looked-up projects, and any other project does not occur. |
| InstanceStore.ComposeInstance | frontend/src/store/modules/v1/instance.ts:227-235 | The instance's own fields are kept. The environment is the looked-up one, or the unknown environment when the lookup finds nothing. |
| InstanceStore.Put | frontend/src/store/modules/v1/instance.ts:45-47 | `Map.set`: the entry is overwritten, the map stays valid, and existing keys keep their insertion positions. |
| InstanceStore.PutAll | frontend/src/store/modules/v1/instance.ts:45-47 | After the `forEach(set)` loop the keys are the old keys plus the listed names. Names not listed keep their old entries, and the old key order is a prefix of the new one. |
| InstanceStore.PutAllLastWins | frontend/src/store/modules/v1/instance.ts:45-47 | Each listed name maps to its last occurrence in the list. |
| InstanceStore.UpsertInstances | frontend/src/store/modules/v1/instance.ts:41-49 | The result has the input's length and order, each entry composed. Each name maps to its last occurrence. Other names read back as before, and the list cache is untouched. |
| InstanceStore.GetInstanceByName | frontend/src/store/modules/v1/instance.ts:127-129 | Returns the stored entry when the name is a key, and the unknown-instance sentinel otherwise. It never fails. |
| InstanceStore.UpsertThenGet | frontend/src/store/modules/v1/instance.ts:41-49 | Reading back an instance just upserted returns it. |
| InstanceStore.Reset | frontend/src/store/modules/v1/instance.ts:16-18 | The map is empty, so every name reads back as the unknown sentinel. The list cache is unchanged. |
| InstanceStore.InstanceList | frontend/src/store/modules/v1/instance.ts:21-24 | The list has one entry per key, in insertion order: entry `i` is the value stored under the `i`-th key. No name appears twice, and the list holds exactly the stored values. |
| InstanceStore.ActiveInstanceList | frontend/src/store/modules/v1/instance.ts:25-29 | The list holds exactly the stored values whose state is ACTIVE, as a subsequence of the instance list. |
| InstanceStore.ActivateInstanceCount | frontend/src/store/modules/v1/instance.ts:30-38 | The count is at most the length of the active list. It is zero exactly when no active instance has an activation. |
| InstanceStore.ActivateInstanceCountIsCardinality | frontend/src/store/modules/v1/instance.ts:30-38 | The count equals the number of distinct stored names whose instance is both active and activated. |
| InstanceStore.UpsertOne | frontend/src/store/modules/v1/instance.ts:76-78 | Upserting one instance returns it composed. It reads back under its name, and every other name reads back as before. |
| InstanceStore.CreateInstance | frontend/src/store/modules/v1/instance.ts:71-79 | It fails exactly when the create call rejects. Otherwise the server's answer, composed with its environment, is stored under the answer's name and returned. The store stays valid, and the list cache and every other name are unchanged. |
| InstanceStore.UpdateInstance | frontend/src/store/modules/v1/instance.ts:80-87 | It fails exactly when the update call rejects. Otherwise the server's answer, composed with its environment, is stored under the answer's name and returned. The store stays valid, and the list cache and every other name are unchanged. |
| InstanceStore.ArchiveInstance | frontend/src/store/modules/v1/instance.ts:88-96 | It fails exactly when the delete call rejects. Otherwise the instance with state DELETED is returned composed with its environment and stored under its name. No entry of its name is in the active list, and other names and the list cache are unchanged. |
| InstanceStore.RestoreInstance | frontend/src/store/modules/v1/instance.ts:97-104 | It fails exactly when the undelete call rejects. Otherwise the instance with state ACTIVE is returned composed with its environment and stored under its name. It is in the active list, and other names and the list cache are unchanged. |
| InstanceStore.FetchInstanceByName | frontend/src/store/modules/v1/instance.ts:115-126 | It fails exactly when the get call rejects. Otherwise the composed answer is stored under its name and returned. The list cache and every other name are unchanged. |
| InstanceStore.GetOrFetchInstanceByName | frontend/src/store/modules/v1/instance.ts:130-137 | A cached entry is returned with the store unchanged and no remote call. Otherwise the result fails exactly when the fetch rejects. On success the composed answer reads back under the answer's name, every other name and the list cache are unchanged, and the result is the read-back by the requested name: the composed answer when the names agree, and the unknown sentinel when they do not. |
| InstanceStore.GetOrFetchThenCached | frontend/src/store/modules/v1/instance.ts:130-137 | After a successful fetch under the requested name, a second lookup is served from the map without a remote call. |
| InstanceStore.ListCacheKey | frontend/src/store/modules/v1/instance.ts:51-54 | The key kind is "instance". The filter is empty exactly when deleted instances are listed. |
| InstanceStore.BeginListInstances | frontend/src/store/modules/v1/instance.ts:55-60 | A missing entry is created as in flight with the start time. An existing entry and all other entries are left alone. |
| InstanceStore.FinishListInstances | frontend/src/store/modules/v1/instance.ts:64-68 | The map and the result are exactly those of upserting the listed instances, so the last occurrence of a name wins and unlisted names are kept. The result keeps the listing's order. The entry is set to settled with the finish time. |
| InstanceStore.ListInstancesAsWritten | frontend/src/store/modules/v1/instance.ts:50-70 | On success the entry is settled, and the map and the result are those of upserting the listed instances. A rejected call leaves the store exactly as the first half left it, with the entry in flight. |
| InstanceStore.ListInstances | frontend/src/store/modules/v1/instance.ts:50-70 | The same as the source on success. A rejected call leaves the store as it was, so no entry stays in flight. |
| InstanceList.WatcherFetches | frontend/src/store/modules/v1/instance.ts:203-213 | The two guards together fetch exactly when no cache entry exists for the watched key. |
| InstanceList.ViewCacheKeyAsWritten | frontend/src/store/modules/v1/instance.ts:197-200 | The watched key comes from the truthiness of the `MaybeRef` itself, so any ref gives the show-deleted key. |
| InstanceList.ViewCacheKey | frontend/src/store/modules/v1/instance.ts:197-200 | The watched key comes from the unwrapped value. The filter is empty exactly when that value is true. |
| InstanceList.ViewInstances | frontend/src/store/modules/v1/instance.ts:215-220 | The result is the whole instance list when deleted instances are shown. Otherwise it holds exactly the active instances, as a subsequence of the instance list, so it keeps store order and holds each instance once. |
| InstanceList.UseInstanceV1ListAsWritten | frontend/src/store/modules/v1/instance.ts:195-225 | `ready` holds exactly when the key from the truthy test has an entry that is not in flight. |
| InstanceList.UseInstanceV1List | frontend/src/store/modules/v1/instance.ts:195-225 | `ready` holds exactly when the key of the unwrapped value has an entry that is not in flight. |
| InstanceList.RunWatcherAsWritten | frontend/src/store/modules/v1/instance.ts:203-213 | When the watched key has an entry, the store is unchanged. When it has none, the run lists with the unwrapped value, so the entry of that value's key exists afterwards and is settled when the call succeeds. |
| InstanceList.RunWatcher | frontend/src/store/modules/v1/instance.ts:203-213 | When the watched key has an entry, the store is unchanged. A rejected fetch also leaves the store unchanged. |
| InstanceList.BegunFetchSuppressesWatcher | frontend/src/store/modules/v1/instance.ts:203-207 | Once a list fetch has begun, the watcher does not start another for that key, and a freshly begun entry is not ready. |
| InstanceList.WatcherRunMakesReady | frontend/src/store/modules/v1/instance.ts:212-223 | With the unwrapped key, a watcher run whose list call succeeds leaves the view ready, unless another fetch is still in flight. |
| InstanceList.RefFalseNeverReady | frontend/src/store/modules/v1/instance.ts:195-213 | For `ref(false)` the source's watcher run settles the active-only key, a different key from the show-deleted key it watches. The view stays not ready and the watcher would fetch again. The corrected composable is ready. |
| InstanceList.RejectedListBlocksWatcher | frontend/src/store/modules/v1/instance.ts:55-69 | After a rejected list call in the source, the view is not ready and the watcher never retries. |
| InstanceList.RejectedListAllowsRetry | frontend/src/store/modules/v1/instance.ts:55-69 | With the flag cleared on failure, the next watcher run fetches again. |
| InstanceList.ResetKeepsCacheEntries | frontend/src/store/modules/v1/instance.ts:16-18 | After `reset` a ready view stays ready over an empty list, and its watcher does not refetch. |
| ExperimentalIssue.ComposeIssue | frontend/src/store/modules/v1/experimental-issue.ts:33-97 | The raw issue, project name, project entity and creator are kept, with the creator falling back to the unknown user. The plan entity is present exactly when plan data is asked for, referenced and `bb.plans.get` is granted. Plan-check runs, rollout and task runs are filled only under their own flag, reference and permission, and otherwise keep their defaults. Each of the four plan and rollout calls is made exactly when its data is wanted and its permission is granted. |
| ExperimentalIssue.AttachPlan | frontend/src/store/modules/v1/experimental-issue.ts:59-79 | Only the two plan fields change. Each is filled exactly when plan data is wanted and its permission is granted. Its call is made under exactly the same condition, and no other call is made. |
| ExperimentalIssue.AttachRollout | frontend/src/store/modules/v1/experimental-issue.ts:80-94 | Only the two rollout fields change. Each is filled exactly when rollout data is wanted and its permission is granted. Its call is made under exactly the same condition, and no other call is made. Task runs are listed for every stage and task at page size 1000. |
| ExperimentalIssue.ComposeIssuePlanCalls | frontend/src/store/modules/v1/experimental-issue.ts:59-79 | No plan call is made unless plan data is wanted. The plan is fetched exactly when it is attached. |
| ExperimentalIssue.ComposeIssueRolloutCalls | frontend/src/store/modules/v1/experimental-issue.ts:80-94 | No rollout call is made unless rollout data is wanted. |
| ExperimentalIssue.ComposeIssueCallCount | frontend/src/store/modules/v1/experimental-issue.ts:59-94 | At most four plan and rollout service calls are made, and the issue itself is never fetched again. The project lookup goes through the project store and is not counted. |
| ExperimentalIssue.ShallowComposeIssue | frontend/src/store/modules/v1/experimental-issue.ts:99-107 | With a config it is `composeIssue`. Without one, no calls are made and every optional field keeps its default. |
| ExperimentalIssue.ShallowIsComposeWithoutPlanOrRollout | frontend/src/store/modules/v1/experimental-issue.ts:99-107 | Without a config it equals `composeIssue` with both flags false. |
| ExperimentalIssue.PermissionChecksAreIndependent | frontend/src/store/modules/v1/experimental-issue.ts:59-94 | Changing any permission other than a field's own leaves that field as it was, for each of the four fields. |
| ExperimentalIssue.MorePermissionsShowMore | frontend/src/store/modules/v1/experimental-issue.ts:59-94 | Widening the granted permissions never hides or changes a field that was filled. |
| ExperimentalIssue.FetchIssueByUid | frontend/src/store/modules/v1/experimental-issue.ts:109-126 | "undefined" and the unknown id give the unknown issue without a call. The empty id gives the empty issue without a call. Any other uid is fetched first as `projects/{project}/issues/{uid}`, with project defaulting to "-", and then composed with the default config. |
| ExperimentalIssue.FetchIssueByName | frontend/src/store/modules/v1/experimental-issue.ts:128-137 | The two sentinel names give their sentinel issues without a call. Any other name is fetched first and then composed, and the calls after the fetch are exactly those of the composition. |
| ExperimentalIssue.FetchByUidIsFetchByName | frontend/src/store/modules/v1/experimental-issue.ts:109-137 | For an ordinary uid within a project, fetching by uid equals fetching by the full resource name. |
| ExperimentalIssue.SentinelNameForm | frontend/src/store/modules/v1/experimental-issue.ts:118-130 | A name built from a non-sentinel uid is neither sentinel issue name. |
| IssueCreation.CreateIssueByPlan | frontend/src/store/modules/v1/experimental-issue.ts:143-172 | The trace starts with the plan call, and its steps are in the fixed order plan, plan hook, issue, issue hook, rollout, rollout hook. A failed run ends on the creation call whose service rejected, and the run's error is that rejection. A rejected plan call ends the run at once. The plan hook receives the plan request. |
| IssueCreation.CreationSucceedsWhenAllResolve | frontend/src/store/modules/v1/experimental-issue.ts:149-172 | When the plan, issue and rollout calls all resolve, the run succeeds. |
| IssueCreation.CreationStepsAtMostOnce | frontend/src/store/modules/v1/experimental-issue.ts:149-172 | Every later step ranks above every earlier one, so no step of a run happens twice. |
| IssueCreation.IssueStage | frontend/src/store/modules/v1/experimental-issue.ts:155-172 | The stage's steps start with the issue call, which carries the plan's name, and are in order. A failure ends on the call whose service rejected, with its error. The stage succeeds when the issue and rollout calls resolve. |
| IssueCreation.RolloutStage | frontend/src/store/modules/v1/experimental-issue.ts:161-169 | The stage's steps start with the rollout call for the plan and are in order. A failure ends on the rejected rollout call, with its error. The stage succeeds when the rollout call resolves. |
| IssueCreation.CreationLinksResources | frontend/src/store/modules/v1/experimental-issue.ts:149-172 | On success the issue request carries the created plan's name, and so does the rollout request. The returned issue is the created issue with the created rollout's name. The trace is plan call, plan hook, issue call, issue hook, rollout call, rollout hook, with each hook present when supplied. |
| IssueCreation.SuccessTraceCreateCalls | frontend/src/store/modules/v1/experimental-issue.ts:149-167 | A successful run makes exactly three creation calls: plan, issue, rollout. |
| IssueCreation.IssueStageFailure | frontend/src/store/modules/v1/experimental-issue.ts:155-169 | A failed issue stage is the issue call alone, or it ends on the rollout call. |
| IssueCreation.FailureKeepsEarlierSteps | frontend/src/store/modules/v1/experimental-issue.ts:149-169 | After the plan exists, a failed run keeps the plan call and ends on the issue or rollout call. A rollout failure comes after the issue call, and nothing is rolled back. |
| FilterStore.InitialFilter | frontend/src/store/modules/filter.ts:22-40 | A non-empty string `filter` yields its parse result, or `{}` with one logged error when parsing fails. Otherwise `schema` and `table` are set exactly from non-empty string values, `project` and `database` stay unset, and nothing is logged. |
| FilterStore.BlobIgnoresDiscreteFields | frontend/src/store/modules/filter.ts:27-40 | With a filter blob present, the `schema` and `table` query values make no difference. |
| FilterStore.EmptyQueryEmptyFilter | frontend/src/store/modules/filter.ts:22-40 | A query naming nothing yields `{}` and logs nothing. |
| FilterStore.DiscreteFieldsRoundTrip | frontend/src/store/modules/filter.ts:33-40 | Non-empty `schema` and `table` strings come back unchanged in the filter. |

## Left out

- Vue reactivity is not modelled. This covers `computed`, `watchEffect`, `watch`, `reactive` and the scheduling of watcher re-runs. Derived views are recomputed functions, and the watcher is one run of its body.
- Some effects are parameters or are left out:
  - `useDynamicLocalStorage` and the per-user storage key are left out; the stored list is a value in and out.
  - `useRouter` is left out; the route query is a parameter.
  - `console.error` is an error-line output, and `console.warn` is left out.
  - `Date.now()` is left out; timestamps are parameters.
- gRPC transport and the `silent` option are left out. Each client call is an oracle.
- `Promise.all` interleaving and the races between overlapping get-or-fetch or list calls are not modelled. Every call is sequential.
- `syncInstance` and `batchSyncInstances` are left out. They only forward a request to the server and change no state.
- `createDataSource`, `updateDataSource` and `deleteDataSource` are left out. Each is one remote call followed by the one-instance upsert that `InstanceStore.UpdateInstance` already models.
- `REFRESH_PLAN_LIST`, `refreshPlanList` and `useRefreshPlanList` are left out. They are a random refresh token with no logic.
- The internals of `hasProjectPermissionV2`, `isValidProjectName`, the `extract*ResourceName` helpers, `JSON.parse`, and the project, user and environment stores are not shown. They are oracles.
- `@/types` is not part of this model. The model assumes these sentinel values:
  - `EMPTY_ID` is 0 and `UNKNOWN_ID` is -1.
  - The sentinel issue names are `projects/{id}/issues/{id}`.
  - The sentinel users and projects are named after these ids.
  - The empty rollout has empty name and plan.

  `ExperimentalIssue.SentinelNameForm` and `ExperimentalIssue.FetchByUidIsFetchByName` depend on the sentinel issue names having exactly that form. The other proofs use only the fact that the empty and unknown sentinels differ.
- In-place mutation of arguments is not modelled. This covers `issueCreate.plan = …`, `instance.state = …`, `createdIssue.rollout = …` and `composeInstance` writing into its argument. The model returns new values, and the caller's object is not modelled.
- InstanceStore.ComposeInstance: the environment lookup is assumed to resolve. In the source a rejected `getOrFetchEnvironmentByName` (`instance.ts:229-232`) rejects `upsertInstances` through `Promise.all` before any entry is set. Then `listInstances` leaves its cache entry in flight. Create, update, archive, restore and fetch reject after their server call succeeded, so the server's change is not mirrored in the map. Those paths are not modelled.
- ExperimentalIssue.FetchIssueByUid: the `getIssue` call (`experimental-issue.ts:121`) is assumed to resolve. A rejection would reject the fetch, and that path is not modelled.
- ExperimentalIssue.FetchIssueByName: the `getIssue` call (`experimental-issue.ts:132`) is assumed to resolve. A rejection would reject the fetch, and that path is not modelled.
- ExperimentalIssue.ComposeIssue: the project lookup and the plan, plan-check, rollout and task-run calls are assumed to succeed. A rejection would reject the whole composition, and that path is not modelled.
- IssueCreation.CreateIssueByPlan: the hooks are assumed to resolve. A rejecting hook would end the sequence early, and that path is not modelled.
- FilterStore.InitialFilter: `JSON.parse` either yields a `Filter` or fails. A blob that parses to a non-object, or to an object with other fields, is not modelled.

## Findings

| source | as written | input that shows it | evidently intended | confidence | as-written member | corrected member |
|---|---|---|---|---|---|---|
| frontend/src/store/modules/v1/instance.ts:195-213 | The watched cache key is computed from `showDeleted ? "" : "active"` on the `MaybeRef` itself. A ref is an object and always truthy, while the fetch it triggers uses `unref(showDeleted)`. | `useInstanceV1List(ref(false))` with no cache entries and a successful list call. The fetch settles the `("instance","active")` entry, but the composable watches `("instance","")`. So `ready` stays false and the watcher fetches again on every run (`InstanceList.RefFalseNeverReady`). | Compute the key from `unref(showDeleted)`. Then a successful watcher run makes the view ready (`InstanceList.WatcherRunMakesReady`). | high; not executed | InstanceList.UseInstanceV1ListAsWritten | InstanceList.UseInstanceV1List |
| frontend/src/store/modules/v1/instance.ts:55-69 | `listInstances` marks a new cache entry as in flight before the remote call and clears the flag only after it succeeds. No `finally` clears it on rejection. | Any `listInstances` call whose remote call rejects while no entry exists. The entry stays `isFetching: true`, the watcher never retries and `ready` is never true (`InstanceList.RejectedListBlocksWatcher`). | Clear the in-flight entry when the call rejects, so the next watcher run retries (`InstanceList.RejectedListAllowsRetry`). | medium; not executed | InstanceStore.ListInstancesAsWritten | InstanceStore.ListInstances |

=== FILE: experimental_issue.dfy ===
/** Issue composition: turning a raw issue into the view the issue page shows, by
    attaching its project and creator and, when asked for and permitted, its plan,
    latest plan-check runs, rollout and task runs. Each remote call is an oracle in
    `Services`; the calls made are returned in the order they are awaited, so "no
    call was made" can be stated. */
module ExperimentalIssue {
  import opened Wrappers
  import opened Resources

  datatype Issue = Issue(name: string, title: string, creator: string, plan: string, rollout: string)
  datatype Plan = Plan(name: string, title: string)
  datatype PlanCheckRun = PlanCheckRun(name: string)
  datatype Rollout = Rollout(name: string, plan: string)
  datatype TaskRun = TaskRun(name: string)

  /** `emptyRollout()`: the placeholder a composed issue carries when it has no
      rollout or may not see it. */
  const EmptyRollout: Rollout := Rollout("", "")

  /** `ComposedIssue`: the raw issue plus the attached entities. The spread
      `...rawIssue` is `raw`; the remaining fields are the ones set over it. */
  datatype ComposedIssue = ComposedIssue(
    raw: Issue,
    planEntity: Option<Plan>,
    planCheckRunList: seq<PlanCheckRun>,
    rolloutEntity: Rollout,
    rolloutTaskRunList: seq<TaskRun>,
    project: string,
    projectEntity: Project,
    creatorEntity: User)

  /** `EMPTY_ISSUE_NAME` and `UNKNOWN_ISSUE_NAME`. */
  const EmptyIssueName: string := "projects/" + EmptyUid + "/issues/" + EmptyUid
  const UnknownIssueName: string := "projects/" + UnknownUid + "/issues/" + UnknownUid

  /** A sentinel issue: nothing attached beyond its placeholder project. */
  function SentinelIssue(name: string, project: Project): ComposedIssue {
    ComposedIssue(Issue(name, "", "", "", ""), None, [], EmptyRollout, [], project.name, project, UnknownUser)
  }

  /** `emptyIssue()` and `unknownIssue()`. */
  const EmptyIssue: ComposedIssue := SentinelIssue(EmptyIssueName, EmptyProject)
  const UnknownIssue: ComposedIssue := SentinelIssue(UnknownIssueName, UnknownProject)

  /** `ComposeIssueConfig`: both flags optional; an absent flag is falsy. */
  datatype ComposeIssueConfig = ComposeIssueConfig(withPlan: Option<bool>, withRollout: Option<bool>)

  /** The default of `composeIssue`, used only when no config is passed. */
  const FullConfig: ComposeIssueConfig := ComposeIssueConfig(Some(true), Some(true))

  /** The default of `shallowComposeIssue`. */
  const ShallowConfig: ComposeIssueConfig := ComposeIssueConfig(Some(false), Some(false))

  /** The config `composeIssue` acts on: the one passed, or the full default. */
  function Effective(config: Option<ComposeIssueConfig>): ComposeIssueConfig {
    config.GetOr(FullConfig)
  }

  /** Truthiness of an optional flag. */
  predicate Flag(b: Option<bool>) {
    b == Some(true)
  }

  /** `pageSize` of the task-run listing. */
  const TaskRunPageSize: int := 1000

  /** The remote calls issue composition and lookup can make. */
  datatype RemoteCall =
    | GetIssue(name: string)
    | GetPlan(name: string)
    | ListPlanCheckRuns(parent: string, latestOnly: bool)
    | GetRollout(name: string)
    | ListTaskRuns(parent: string, pageSize: int)

  predicate IsPlanCall(c: RemoteCall) {
    c.GetPlan? || c.ListPlanCheckRuns?
  }

  predicate IsRolloutCall(c: RemoteCall) {
    c.GetRollout? || c.ListTaskRuns?
  }

  /** The collaborators of composition, all treated as oracles: the resource-name
      extractors, the project and user stores, the current user, the permission
      check and the plan, rollout and issue services. */
  datatype Services = Services(
    extractProjectResourceName: string -> string,
    extractUserResourceName: string -> string,
    getOrFetchProjectByName: string -> Project,
    getUserByEmail: string -> Option<User>,
    me: User,
    hasPermission: PermissionOracle,
    getPlan: string -> Plan,
    listLatestPlanCheckRuns: string -> seq<PlanCheckRun>,
    getRollout: string -> Rollout,
    listTaskRuns: (string, int) -> seq<TaskRun>,
    getIssue: string -> Issue)

  /** A composed issue together with the remote calls made for it, in order. */
  datatype Composition = Composition(issue: ComposedIssue, calls: seq<RemoteCall>)

  /** The project resource name an issue belongs to. */
  function ProjectOf(raw: Issue, sv: Services): string {
    "projects/" + sv.extractProjectResourceName(raw.name)
  }

  /** Whether the effective config and the issue ask for plan data. */
  predicate WantsPlan(raw: Issue, cfg: ComposeIssueConfig) {
    Flag(cfg.withPlan) && raw.plan != ""
  }

  /** Whether the effective config and the issue ask for rollout data. */
  predicate WantsRollout(raw: Issue, cfg: ComposeIssueConfig) {
    Flag(cfg.withRollout) && raw.rollout != ""
  }

  /** Whether the current user holds `perm` on the issue's project. */
  predicate Granted(raw: Issue, sv: Services, perm: Permission) {
    sv.hasPermission(sv.getOrFetchProjectByName(ProjectOf(raw, sv)), sv.me, perm)
  }

  /** The task-run listing parent for a rollout: every task of every stage. */
  function TaskRunParent(rollout: string): string {
    rollout + "/stages/-/tasks/-"
  }

  /** The composed issue before the plan and rollout blocks: project and creator
      resolved, every optional field at its default. */
  function BaseIssue(raw: Issue, sv: Services): ComposedIssue {
    var project := ProjectOf(raw, sv);
    var creatorEntity := sv.getUserByEmail(sv.extractUserResourceName(raw.creator)).GetOr(UnknownUser);
    ComposedIssue(raw, None, [], EmptyRollout, [], project, sv.getOrFetchProjectByName(project), creatorEntity)
  }

  /** `composeIssue(rawIssue, config)`. Every optional field starts at its default
      and is overwritten only when the config flag is set, the issue references
      the plan or rollout, and the matching permission is granted; each permission
      is checked on its own. */
  function ComposeIssue(raw: Issue, config: Option<ComposeIssueConfig>, sv: Services): (r: Composition)
    ensures r.issue.raw == raw
    ensures r.issue.project == "projects/" + sv.extractProjectResourceName(raw.name)
    ensures r.issue.projectEntity == sv.getOrFetchProjectByName(r.issue.project)
    ensures sv.getUserByEmail(sv.extractUserResourceName(raw.creator)).None? ==> r.issue.creatorEntity == UnknownUser
    ensures sv.getUserByEmail(sv.extractUserResourceName(raw.creator)).Some? ==>
              r.issue.creatorEntity == sv.getUserByEmail(sv.extractUserResourceName(raw.creator)).value
    // plan entity: present exactly when asked for, referenced and `bb.plans.get` is granted
    ensures var cfg := Effective(config);
            r.issue.planEntity.Some? <==> WantsPlan(raw, cfg) && Granted(raw, sv, PlansGet)
    ensures r.issue.planEntity.Some? ==> r.issue.planEntity.value == sv.getPlan(raw.plan)
    ensures var cfg := Effective(config);
            !(WantsPlan(raw, cfg) && Granted(raw, sv, PlanCheckRunsList)) ==> r.issue.planCheckRunList == []
    ensures var cfg := Effective(config);
            WantsPlan(raw, cfg) && Granted(raw, sv, PlanCheckRunsList) ==>
              r.issue.planCheckRunList == sv.listLatestPlanCheckRuns(raw.plan)
    // rollout entity: the empty rollout unless asked for, referenced and `bb.rollouts.get` is granted
    ensures var cfg := Effective(config);
            !(WantsRollout(raw, cfg) && Granted(raw, sv, RolloutsGet)) ==> r.issue.rolloutEntity == EmptyRollout
    ensures var cfg := Effective(config);
            WantsRollout(raw, cfg) && Granted(raw, sv, RolloutsGet) ==>
              r.issue.rolloutEntity == sv.getRollout(raw.rollout)
    ensures var cfg := Effective(config);
            !(WantsRollout(raw, cfg) && Granted(raw, sv, TaskRunsList)) ==> r.issue.rolloutTaskRunList == []
    ensures var cfg := Effective(config);
            WantsRollout(raw, cfg) && Granted(raw, sv, TaskRunsList) ==>
              r.issue.rolloutTaskRunList == sv.listTaskRuns(TaskRunParent(raw.rollout), TaskRunPageSize)
    // each service call is made exactly when its field is asked for, referenced and permitted
    ensures var cfg := Effective(config);
            GetPlan(raw.plan) in r.calls <==> WantsPlan(raw, cfg) && Granted(raw, sv, PlansGet)
    ensures var cfg := Effective(config);
            ListPlanCheckRuns(raw.plan, true) in r.calls <==> WantsPlan(raw, cfg) && Granted(raw, sv, PlanCheckRunsList)
    ensures var cfg := Effective(config);
            GetRollout(raw.rollout) in r.calls <==> WantsRollout(raw, cfg) && Granted(raw, sv, RolloutsGet)
    ensures var cfg := Effective(config);
            (ListTaskRuns(TaskRunParent(raw.rollout), TaskRunPageSize) in r.calls
             <==> WantsRollout(raw, cfg) && Granted(raw, sv, TaskRunsList))
  {
    var cfg := Effective(config);
    var projectEntity := sv.getOrFetchProjectByName(ProjectOf(raw, sv));
    var withPlan := AttachPlan(BaseIssue(raw, sv), cfg, sv);
    assert withPlan.issue.raw == raw && withPlan.issue.projectEntity == projectEntity;
    assert withPlan.issue.rolloutEntity == EmptyRollout && withPlan.issue.rolloutTaskRunList == [];
    var withRollout := AttachRollout(withPlan.issue, cfg, sv);
    assert withRollout.issue.planEntity == withPlan.issue.planEntity;
    assert withRollout.issue.planCheckRunList == withPlan.issue.planCheckRunList;
    var calls := withPlan.calls + withRollout.calls;
    assert GetPlan(raw.plan) !in withRollout.calls && ListPlanCheckRuns(raw.plan, true) !in withRollout.calls;
    assert GetRollout(raw.rollout) !in withPlan.calls;
    assert ListTaskRuns(TaskRunParent(raw.rollout), TaskRunPageSize) !in withPlan.calls;
    Composition(withRollout.issue, calls)
  }

  /** `composeIssue` runs the plan block on the base issue and the rollout block
      on its result, and makes the plan block's calls before the rollout block's. */
  lemma ComposeIssueIsAttachments(raw: Issue, config: Option<ComposeIssueConfig>, sv: Services)
    ensures var withPlan := AttachPlan(BaseIssue(raw, sv), Effective(config), sv);
            var withRollout := AttachRollout(withPlan.issue, Effective(config), sv);
            ComposeIssue(raw, config, sv) == Composition(withRollout.issue, withPlan.calls + withRollout.calls)
  {
  }

  /** The plan calls of `composeIssue`: none unless plan data is wanted, and the
      plan is fetched exactly when it is attached. */
  lemma ComposeIssuePlanCalls(raw: Issue, config: Option<ComposeIssueConfig>, sv: Services)
    ensures var r := ComposeIssue(raw, config, sv);
            !WantsPlan(raw, Effective(config)) ==> forall c :: c in r.calls ==> !IsPlanCall(c)
    ensures var r := ComposeIssue(raw, config, sv);
            GetPlan(raw.plan) in r.calls <==> r.issue.planEntity.Some?
  {
    ComposeIssueIsAttachments(raw, config, sv);
    var withPlan := AttachPlan(BaseIssue(raw, sv), Effective(config), sv);
    var withRollout := AttachRollout(withPlan.issue, Effective(config), sv);
    assert forall c :: c in withPlan.calls + withRollout.calls <==> c in withPlan.calls || c in withRollout.calls;
    assert GetPlan(raw.plan) !in withRollout.calls;
  }

  /** The rollout calls of `composeIssue`: none unless rollout data is wanted. */
  lemma ComposeIssueRolloutCalls(raw: Issue, config: Option<ComposeIssueConfig>, sv: Services)
    ensures var r := ComposeIssue(raw, config, sv);
            !WantsRollout(raw, Effective(config)) ==> forall c :: c in r.calls ==> !IsRolloutCall(c)
  {
    ComposeIssueIsAttachments(raw, config, sv);
    var withPlan := AttachPlan(BaseIssue(raw, sv), Effective(config), sv);
    var withRollout := AttachRollout(withPlan.issue, Effective(config), sv);
    assert forall c :: c in withPlan.calls + withRollout.calls <==> c in withPlan.calls || c in withRollout.calls;
  }

  /** `composeIssue` never fetches the issue itself again and makes at most four
      plan and rollout calls: plan, plan-check runs, rollout, task runs. The
      project lookup goes through the project store and is not among them. */
  lemma ComposeIssueCallCount(raw: Issue, config: Option<ComposeIssueConfig>, sv: Services)
    ensures |ComposeIssue(raw, config, sv).calls| <= 4
    ensures forall c :: c in ComposeIssue(raw, config, sv).calls ==> !c.GetIssue?
  {
    ComposeIssueIsAttachments(raw, config, sv);
    var withPlan := AttachPlan(BaseIssue(raw, sv), Effective(config), sv);
    var withRollout := AttachRollout(withPlan.issue, Effective(config), sv);
    assert forall c :: c in withPlan.calls + withRollout.calls <==> c in withPlan.calls || c in withRollout.calls;
  }

  /** The `withPlan` block of `composeIssue`. */
  function AttachPlan(issue: ComposedIssue, cfg: ComposeIssueConfig, sv: Services): (r: Composition)
    ensures r.issue == issue.(planEntity := r.issue.planEntity, planCheckRunList := r.issue.planCheckRunList)
    ensures var wants := WantsPlan(issue.raw, cfg);
            var canGet := sv.hasPermission(issue.projectEntity, sv.me, PlansGet);
            var canList := sv.hasPermission(issue.projectEntity, sv.me, PlanCheckRunsList);
            && (wants && canGet ==> r.issue.planEntity == Some(sv.getPlan(issue.raw.plan)))
            && (!(wants && canGet) ==> r.issue.planEntity == issue.planEntity)
            && (GetPlan(issue.raw.plan) in r.calls <==> wants && canGet)
            && (wants && canList ==> r.issue.planCheckRunList == sv.listLatestPlanCheckRuns(issue.raw.plan))
            && (!(wants && canList) ==> r.issue.planCheckRunList == issue.planCheckRunList)
            && (ListPlanCheckRuns(issue.raw.plan, true) in r.calls <==> wants && canList)
            && (!wants ==> r.calls == [])
    ensures forall c :: c in r.calls ==> c == GetPlan(issue.raw.plan) || c == ListPlanCheckRuns(issue.raw.plan, true)
    ensures forall c :: c in r.calls ==> IsPlanCall(c)
    ensures |r.calls| <= 2
  {
    if WantsPlan(issue.raw, cfg) then
      var canGet := sv.hasPermission(issue.projectEntity, sv.me, PlansGet);
      var canList := sv.hasPermission(issue.projectEntity, sv.me, PlanCheckRunsList);
      var planEntity := if canGet then Some(sv.getPlan(issue.raw.plan)) else issue.planEntity;
      var runs := if canList then sv.listLatestPlanCheckRuns(issue.raw.plan) else issue.planCheckRunList;
      var calls := (if canGet then [GetPlan(issue.raw.plan)] else [])
                 + (if canList then [ListPlanCheckRuns(issue.raw.plan, true)] else []);
      Composition(issue.(planEntity := planEntity, planCheckRunList := runs), calls)
    else
      Composition(issue, [])
  }

  /** The `withRollout` block of `composeIssue`. */
  function AttachRollout(issue: ComposedIssue, cfg: ComposeIssueConfig, sv: Services): (r: Composition)
    ensures r.issue == issue.(rolloutEntity := r.issue.rolloutEntity, rolloutTaskRunList := r.issue.rolloutTaskRunList)
    ensures var wants := WantsRollout(issue.raw, cfg);
            var canGet := sv.hasPermission(issue.projectEntity, sv.me, RolloutsGet);
            var canList := sv.hasPermission(issue.projectEntity, sv.me, TaskRunsList);
            var parent := TaskRunParent(issue.raw.rollout);
            && (wants && canGet ==> r.issue.rolloutEntity == sv.getRollout(issue.raw.rollout))
            && (!(wants && canGet) ==> r.issue.rolloutEntity == issue.rolloutEntity)
            && (GetRollout(issue.raw.rollout) in r.calls <==> wants && canGet)
            && (wants && canList ==> r.issue.rolloutTaskRunList == sv.listTaskRuns(parent, TaskRunPageSize))
            && (!(wants && canList) ==> r.issue.rolloutTaskRunList == issue.rolloutTaskRunList)
            && (ListTaskRuns(parent, TaskRunPageSize) in r.calls <==> wants && canList)
            && (!wants ==> r.calls == [])
    ensures forall c :: c in r.calls ==>
              c == GetRollout(issue.raw.rollout) || c == ListTaskRuns(TaskRunParent(issue.raw.rollout), TaskRunPageSize)
    ensures forall c :: c in r.calls ==> IsRolloutCall(c)
    ensures |r.calls| <= 2
  {
    if WantsRollout(issue.raw, cfg) then
      var canGet := sv.hasPermission(issue.projectEntity, sv.me, RolloutsGet);
      var canList := sv.hasPermission(issue.projectEntity, sv.me, TaskRunsList);
      var rollout := if canGet then sv.getRollout(issue.raw.rollout) else issue.rolloutEntity;
      var runs := if canList then sv.listTaskRuns(TaskRunParent(issue.raw.rollout), TaskRunPageSize) else issue.rolloutTaskRunList;
      var calls := (if canGet then [GetRollout(issue.raw.rollout)] else [])
                 + (if canList then [ListTaskRuns(TaskRunParent(issue.raw.rollout), TaskRunPageSize)] else []);
      Composition(issue.(rolloutEntity := rollout, rolloutTaskRunList := runs), calls)
    else
      Composition(issue, [])
  }

  /** `shallowComposeIssue(rawIssue, config)`: `composeIssue` with the caller's
      config, or with both flags off when none is given. */
  function ShallowComposeIssue(raw: Issue, config: Option<ComposeIssueConfig>, sv: Services): (r: Composition)
    ensures config.Some? ==> r == ComposeIssue(raw, config, sv)
    ensures config.None? ==>
      && r.calls == []
      && r.issue.planEntity == None && r.issue.planCheckRunList == []
      && r.issue.rolloutEntity == EmptyRollout && r.issue.rolloutTaskRunList == []
  {
    ComposeIssue(raw, Some(config.GetOr(ShallowConfig)), sv)
  }

  /** Without a config, the shallow variant is `composeIssue` with both flags off. */
  lemma ShallowIsComposeWithoutPlanOrRollout(raw: Issue, sv: Services)
    ensures ShallowComposeIssue(raw, None, sv) == ComposeIssue(raw, Some(ComposeIssueConfig(Some(false), Some(false))), sv)
  {
  }

  /** The permission checks are independent: changing the answer for every
      permission except `bb.planCheckRuns.list` leaves the plan-check runs as they
      were, and likewise for the other three fields and their permissions. */
  lemma PermissionChecksAreIndependent(raw: Issue, config: Option<ComposeIssueConfig>, sv: Services, other: PermissionOracle)
    ensures var p := sv.getOrFetchProjectByName(ProjectOf(raw, sv));
            var r1 := ComposeIssue(raw, config, sv).issue;
            var r2 := ComposeIssue(raw, config, sv.(hasPermission := other)).issue;
            && (other(p, sv.me, PlansGet) == sv.hasPermission(p, sv.me, PlansGet) ==> r2.planEntity == r1.planEntity)
            && (other(p, sv.me, PlanCheckRunsList) == sv.hasPermission(p, sv.me, PlanCheckRunsList) ==>
                  r2.planCheckRunList == r1.planCheckRunList)
            && (other(p, sv.me, RolloutsGet) == sv.hasPermission(p, sv.me, RolloutsGet) ==> r2.rolloutEntity == r1.rolloutEntity)
            && (other(p, sv.me, TaskRunsList) == sv.hasPermission(p, sv.me, TaskRunsList) ==>
                  r2.rolloutTaskRunList == r1.rolloutTaskRunList)
  {
  }

  /** Granting more permissions never hides anything: every optional field that is
      filled under the narrower permissions is filled with the same value under
      the wider ones. */
  lemma MorePermissionsShowMore(raw: Issue, config: Option<ComposeIssueConfig>, sv: Services, wider: PermissionOracle)
    requires forall perm :: sv.hasPermission(sv.getOrFetchProjectByName(ProjectOf(raw, sv)), sv.me, perm) ==>
                              wider(sv.getOrFetchProjectByName(ProjectOf(raw, sv)), sv.me, perm)
    ensures var r1 := ComposeIssue(raw, config, sv).issue;
            var r2 := ComposeIssue(raw, config, sv.(hasPermission := wider)).issue;
            && (r1.planEntity.Some? ==> r2.planEntity == r1.planEntity)
            && (r1.rolloutEntity != EmptyRollout ==> r2.rolloutEntity == r1.rolloutEntity)
            && (r1.planCheckRunList != [] ==> r2.planCheckRunList == r1.planCheckRunList)
            && (r1.rolloutTaskRunList != [] ==> r2.rolloutTaskRunList == r1.rolloutTaskRunList)
  {
    var sw := sv.(hasPermission := wider);
    assert ProjectOf(raw, sw) == ProjectOf(raw, sv);
    assert forall perm :: Granted(raw, sv, perm) ==> Granted(raw, sw, perm);
  }

  /** `experimentalFetchIssueByUID(uid, project)`: the literal "undefined" and the
      unknown id give the unknown issue, the empty id gives the empty issue, all
      without a remote call; any other uid is fetched under its project (default
      "-") and composed with plan and rollout data. */
  function FetchIssueByUid(uid: string, project: Option<string>, sv: Services): (r: Composition)
    ensures uid == "undefined" || uid == UnknownUid ==> r == Composition(UnknownIssue, [])
    ensures uid == EmptyUid ==> r == Composition(EmptyIssue, [])
    ensures uid !in {"undefined", EmptyUid, UnknownUid} ==>
      var name := "projects/" + project.GetOr("-") + "/issues/" + uid;
      && |r.calls| > 0 && r.calls[0] == GetIssue(name)
      && r.issue == ComposeIssue(sv.getIssue(name), None, sv).issue
      && r.calls[1..] == ComposeIssue(sv.getIssue(name), None, sv).calls
  {
    if uid == "undefined" then Composition(UnknownIssue, [])
    else if uid == EmptyUid then Composition(EmptyIssue, [])
    else if uid == UnknownUid then Composition(UnknownIssue, [])
    else
      var name := "projects/" + project.GetOr("-") + "/issues/" + uid;
      var c := ComposeIssue(sv.getIssue(name), None, sv);
      Composition(c.issue, [GetIssue(name)] + c.calls)
  }

  /** `experimentalFetchIssueByName(name)`: the two sentinel names give their
      sentinel issues without a remote call; any other name is fetched and
      composed with plan and rollout data. */
  function FetchIssueByName(name: string, sv: Services): (r: Composition)
    ensures name == EmptyIssueName ==> r == Composition(EmptyIssue, [])
    ensures name == UnknownIssueName ==> r == Composition(UnknownIssue, [])
    ensures name != EmptyIssueName && name != UnknownIssueName ==>
      && |r.calls| > 0 && r.calls[0] == GetIssue(name)
      && r.issue == ComposeIssue(sv.getIssue(name), None, sv).issue
      && r.calls[1..] == ComposeIssue(sv.getIssue(name), None, sv).calls
  {
    if name == EmptyIssueName then Composition(EmptyIssue, [])
    else if name == UnknownIssueName then Composition(UnknownIssue, [])
    else
      var c := ComposeIssue(sv.getIssue(name), None, sv);
      Composition(c.issue, [GetIssue(name)] + c.calls)
  }

  /** The two lookups agree: fetching by an ordinary uid within a project is
      fetching by the issue's full resource name. */
  lemma FetchByUidIsFetchByName(uid: string, project: string, sv: Services)
    requires uid !in {"undefined", EmptyUid, UnknownUid}
    ensures FetchIssueByUid(uid, Some(project), sv) == FetchIssueByName("projects/" + project + "/issues/" + uid, sv)
  {
    var name := "projects/" + project + "/issues/" + uid;
    SentinelNameForm(project, uid);
  }

  /** A name built from a project and a uid is a sentinel name only for the
      sentinel uid. */
  lemma SentinelNameForm(project: string, uid: string)
    requires uid != EmptyUid && uid != UnknownUid
    ensures "projects/" + project + "/issues/" + uid != EmptyIssueName
    ensures "projects/" + project + "/issues/" + uid != UnknownIssueName
  {
    var name := "projects/" + project + "/issues/" + uid;
    // the separator after the project sits at offset 9 + |project|
    assert name[9 + |project|] == '/' && name[17 + |project|..] == uid;
  }
}

=== FILE: filter_store.dfy ===
/** The process-wide filter: initialised once from the route query when the store
    is created, either from a JSON blob in `filter` or from the discrete `schema`
    and `table` fields. Later route changes do not touch it; `JSON.parse` is an
    oracle that either yields a filter or fails. */
module FilterStore {
  import opened Wrappers

  /** `Filter`: every field optional. */
  datatype Filter = Filter(project: Option<string>, database: Option<string>, schema: Option<string>, table: Option<string>)

  /** `{}`. */
  const EmptyFilter: Filter := Filter(None, None, None, None)

  /** A route query value: absent, `null`, a string, or an array of them. */
  datatype QueryValue = Missing | Null | Text(text: string) | Many(items: seq<Option<string>>)

  /** The route query fields the store reads. */
  datatype RouteQuery = RouteQuery(filter: QueryValue, schema: QueryValue, table: QueryValue)

  /** `JSON.parse` on a filter blob: `None` when it throws. */
  type FilterParser = string -> Option<Filter>

  /** What initialisation leaves behind: the filter and the error lines logged. */
  datatype Init = Init(filter: Filter, errors: seq<string>)

  /** `x && typeof x === "string"`: a non-empty string. */
  predicate NonEmptyText(v: QueryValue) {
    v.Text? && v.text != ""
  }

  /** The body of `useFilterStore` that sets the initial filter. */
  function InitialFilter(query: RouteQuery, parse: FilterParser): (r: Init)
    // a non-empty JSON blob wins: its parse result, or `{}` and one logged error
    ensures NonEmptyText(query.filter) && parse(query.filter.text).Some? ==>
              r == Init(parse(query.filter.text).value, [])
    ensures NonEmptyText(query.filter) && parse(query.filter.text).None? ==>
              r.filter == EmptyFilter && |r.errors| == 1
    // otherwise only schema and table, each only from a non-empty string
    ensures !NonEmptyText(query.filter) ==> r.errors == [] && r.filter.project.None? && r.filter.database.None?
    ensures !NonEmptyText(query.filter) ==>
              (r.filter.schema.Some? <==> NonEmptyText(query.schema))
              && (r.filter.schema.Some? ==> r.filter.schema.value == query.schema.text)
    ensures !NonEmptyText(query.filter) ==>
              (r.filter.table.Some? <==> NonEmptyText(query.table))
              && (r.filter.table.Some? ==> r.filter.table.value == query.table.text)
  {
    var filter := EmptyFilter;
    if NonEmptyText(query.filter) then
      match parse(query.filter.text)
      case Some(parsed) => Init(parsed, [])
      case None => Init(filter, ["Failed to parse filter"])
    else
      var withSchema := if NonEmptyText(query.schema) then filter.(schema := Some(query.schema.text)) else filter;
      var withTable := if NonEmptyText(query.table) then withSchema.(table := Some(query.table.text)) else withSchema;
      Init(withTable, [])
  }

  /** With a JSON blob present, the discrete fields are ignored. */
  lemma BlobIgnoresDiscreteFields(query: RouteQuery, schema: QueryValue, table: QueryValue, parse: FilterParser)
    requires NonEmptyText(query.filter)
    ensures InitialFilter(query.(schema := schema, table := table), parse) == InitialFilter(query, parse)
  {
  }

  /** A query that names nothing yields the empty filter, silently. */
  lemma EmptyQueryEmptyFilter(parse: FilterParser)
    ensures InitialFilter(RouteQuery(Missing, Missing, Missing), parse) == Init(EmptyFilter, [])
  {
  }

  /** The discrete fields round-trip: whatever non-empty schema and table the
      query carries is what the filter holds. */
  lemma DiscreteFieldsRoundTrip(schema: string, table: string, parse: FilterParser)
    requires schema != "" && table != ""
    ensures InitialFilter(RouteQuery(Missing, Text(schema), Text(table)), parse).filter
         == Filter(None, None, Some(schema), Some(table))
  {
  }
}

=== FILE: instance_list.dfy ===
/** `useInstanceV1List`: the composable that keeps one list fetch per cache key in
    flight through a watcher, and exposes the instance list and a `ready` flag.
    The watcher is modelled as one run of its body; reactivity (when Vue re-runs
    it) is left out. */
module InstanceList {
  import opened Wrappers
  import opened InstanceStore
  import Sequences

  /** `MaybeRef<boolean>`: a plain boolean or a Vue ref holding one. */
  datatype MaybeRef<T> = Plain(value: T) | Ref(current: T)

  /** `unref`. */
  function Unref<T>(x: MaybeRef<T>): T {
    match x
    case Plain(v) => v
    case Ref(v) => v
  }

  /** JavaScript truthiness of a `MaybeRef<boolean>` used directly as a condition:
      a ref is an object, and every object is truthy. */
  function Truthy(x: MaybeRef<bool>): (b: bool)
    ensures x.Plain? ==> b == x.value
    ensures x.Ref? ==> b
  {
    match x
    case Plain(v) => v
    case Ref(_) => true
  }

  /** `store.listCache.get(key)`. */
  function CacheEntry(s: Store, key: CacheKey): Option<StoreCache> {
    if key in s.listCache then Some(s.listCache[key]) else None
  }

  /** The body of the `watchEffect`: skip while a fetch is in flight, skip when an
      entry exists, otherwise fetch. Both guards together mean "fetch only when no
      entry exists". */
  function WatcherFetches(cache: Option<StoreCache>): (b: bool)
    ensures b <==> cache.None?
  {
    if cache.Some? && cache.value.isFetching then false
    else if cache.Some? then false
    else true
  }

  /** `ready`: an entry exists and no fetch for it is in flight. */
  predicate Ready(cache: Option<StoreCache>) {
    cache.Some? && !cache.value.isFetching
  }

  /** What the composable exposes. */
  datatype ListView = ListView(instanceList: seq<ComposedInstance>, ready: bool)

  /** The key the composable watches, as the source computes it: from the
      truthiness of `showDeleted` itself, not of its unwrapped value. */
  function ViewCacheKeyAsWritten(showDeleted: MaybeRef<bool>): (k: CacheKey)
    ensures k == ListCacheKey(Truthy(showDeleted))
    ensures showDeleted.Ref? ==> k.filter == ""
  {
    ListCacheKey(Truthy(showDeleted))
  }

  /** The key the composable watches once `showDeleted` is unwrapped: the same key
      `listInstances(unref(showDeleted))` writes. */
  function ViewCacheKey(showDeleted: MaybeRef<bool>): (k: CacheKey)
    ensures k == ListCacheKey(Unref(showDeleted))
    ensures k.filter == "" <==> Unref(showDeleted)
  {
    ListCacheKey(Unref(showDeleted))
  }

  /** The list part of the composable: every instance when deleted ones are shown,
      the active ones otherwise. */
  function ViewInstances(s: Store, showDeleted: MaybeRef<bool>): (r: seq<ComposedInstance>)
    requires s.Valid()
    ensures Unref(showDeleted) ==> r == InstanceList(s)
    ensures !Unref(showDeleted) ==>
              forall c :: c in r <==> c in s.instances.byName.Values && c.raw.state == InstanceStore.Active
    // in store order, each stored value at most once
    ensures !Unref(showDeleted) ==> Sequences.IsSubsequence(r, InstanceList(s))
  {
    if Unref(showDeleted) then InstanceList(s) else ActiveInstanceList(s)
  }

  /** `useInstanceV1List(showDeleted)` as the source writes it. */
  function UseInstanceV1ListAsWritten(s: Store, showDeleted: MaybeRef<bool>): (v: ListView)
    requires s.Valid()
    ensures v.instanceList == ViewInstances(s, showDeleted)
    ensures v.ready <==> ListCacheKey(Truthy(showDeleted)) in s.listCache
                         && !s.listCache[ListCacheKey(Truthy(showDeleted))].isFetching
  {
    ListView(ViewInstances(s, showDeleted), Ready(CacheEntry(s, ViewCacheKeyAsWritten(showDeleted))))
  }

  /** `useInstanceV1List(showDeleted)` with the key computed from the unwrapped value. */
  function UseInstanceV1List(s: Store, showDeleted: MaybeRef<bool>): (v: ListView)
    requires s.Valid()
    ensures v.instanceList == ViewInstances(s, showDeleted)
    ensures v.ready <==> ListCacheKey(Unref(showDeleted)) in s.listCache
                         && !s.listCache[ListCacheKey(Unref(showDeleted))].isFetching
  {
    ListView(ViewInstances(s, showDeleted), Ready(CacheEntry(s, ViewCacheKey(showDeleted))))
  }

  /** One run of the source's watcher: check the watched key, and if it has no
      entry call `listInstances(unref(showDeleted))` as the source writes it. */
  function RunWatcherAsWritten(
    s: Store, showDeleted: MaybeRef<bool>, startedAt: int, finishedAt: int,
    env: EnvironmentLookup, listRpc: bool -> Result<seq<Instance>>
  ): (r: Store)
    requires s.Valid()
    ensures r.Valid()
    ensures ViewCacheKeyAsWritten(showDeleted) in s.listCache ==> r == s
    // with no entry under the watched key it lists, and settles the key of the unwrapped value
    ensures ViewCacheKeyAsWritten(showDeleted) !in s.listCache ==>
              && ListCacheKey(Unref(showDeleted)) in r.listCache
              && (listRpc(Unref(showDeleted)).Ok? ==> !r.listCache[ListCacheKey(Unref(showDeleted))].isFetching)
  {
    if WatcherFetches(CacheEntry(s, ViewCacheKeyAsWritten(showDeleted))) then
      ListInstancesAsWritten(s, Unref(showDeleted), startedAt, finishedAt, env, listRpc).store
    else s
  }

  /** One run of the watcher with the unwrapped key and the flag cleared on failure. */
  function RunWatcher(
    s: Store, showDeleted: MaybeRef<bool>, startedAt: int, finishedAt: int,
    env: EnvironmentLookup, listRpc: bool -> Result<seq<Instance>>
  ): (r: Store)
    requires s.Valid()
    ensures r.Valid()
    ensures ViewCacheKey(showDeleted) in s.listCache ==> r == s
    ensures ViewCacheKey(showDeleted) !in s.listCache && listRpc(Unref(showDeleted)).Err? ==> r == s
  {
    if WatcherFetches(CacheEntry(s, ViewCacheKey(showDeleted))) then
      ListInstances(s, Unref(showDeleted), startedAt, finishedAt, env, listRpc).store
    else s
  }

  /** Once a list fetch has begun, the watcher does not start another one for the
      same key: at most one watcher-initiated fetch per key is outstanding. */
  lemma BegunFetchSuppressesWatcher(s: Store, showDeleted: bool, now: int)
    ensures !WatcherFetches(CacheEntry(BeginListInstances(s, showDeleted, now), ListCacheKey(showDeleted)))
    ensures ListCacheKey(showDeleted) !in s.listCache ==>
              !Ready(CacheEntry(BeginListInstances(s, showDeleted, now), ListCacheKey(showDeleted)))
  {
  }

  /** With the unwrapped key, a watcher run whose list call succeeds leaves the view
      ready, unless a fetch someone else started is still in flight. */
  lemma WatcherRunMakesReady(
    s: Store, showDeleted: MaybeRef<bool>, startedAt: int, finishedAt: int,
    env: EnvironmentLookup, listRpc: bool -> Result<seq<Instance>>
  )
    requires s.Valid()
    requires listRpc(Unref(showDeleted)).Ok?
    requires CacheEntry(s, ViewCacheKey(showDeleted)).Some? ==> !CacheEntry(s, ViewCacheKey(showDeleted)).value.isFetching
    ensures UseInstanceV1List(RunWatcher(s, showDeleted, startedAt, finishedAt, env, listRpc), showDeleted).ready
  {
    var key := ViewCacheKey(showDeleted);
    if key !in s.listCache {
      var l := ListInstances(s, Unref(showDeleted), startedAt, finishedAt, env, listRpc);
      assert key in l.store.listCache && !l.store.listCache[key].isFetching;
    }
  }

  /** Defect in the source: for `showDeleted = ref(false)` the watched key is the
      show-deleted key, while the fetch it triggers settles the active-only key. So
      after a successful watcher run the view is still not ready and the watcher
      would fetch again on its next run; with the unwrapped key it is ready. */
  lemma RefFalseNeverReady(
    s: Store, startedAt: int, finishedAt: int,
    env: EnvironmentLookup, listRpc: bool -> Result<seq<Instance>>
  )
    requires s.Valid()
    requires ListCacheKey(true) !in s.listCache && ListCacheKey(false) !in s.listCache
    requires listRpc(false).Ok?
    ensures var after := RunWatcherAsWritten(s, Ref(false), startedAt, finishedAt, env, listRpc);
            && ListCacheKey(false) in after.listCache && !after.listCache[ListCacheKey(false)].isFetching
            && !UseInstanceV1ListAsWritten(after, Ref(false)).ready
            && WatcherFetches(CacheEntry(after, ViewCacheKeyAsWritten(Ref(false))))
    ensures UseInstanceV1List(RunWatcher(s, Ref(false), startedAt, finishedAt, env, listRpc), Ref(false)).ready
  {
    var after := RunWatcherAsWritten(s, Ref(false), startedAt, finishedAt, env, listRpc);
    assert after.listCache == s.listCache[ListCacheKey(false) := StoreCache(finishedAt, false)];
    WatcherRunMakesReady(s, Ref(false), startedAt, finishedAt, env, listRpc);
  }

  /** Defect in the source: a rejected list call leaves the entry it created in
      flight, so the view never becomes ready and the watcher never retries. */
  lemma RejectedListBlocksWatcher(
    s: Store, showDeleted: bool, startedAt: int, finishedAt: int,
    env: EnvironmentLookup, listRpc: bool -> Result<seq<Instance>>
  )
    requires s.Valid()
    requires ListCacheKey(showDeleted) !in s.listCache
    requires listRpc(showDeleted).Err?
    ensures var after := RunWatcherAsWritten(s, Plain(showDeleted), startedAt, finishedAt, env, listRpc);
            && !UseInstanceV1ListAsWritten(after, Plain(showDeleted)).ready
            && !WatcherFetches(CacheEntry(after, ViewCacheKeyAsWritten(Plain(showDeleted))))
  {
  }

  /** With the flag cleared on failure, a rejected list call leaves the key without
      an entry, so the next watcher run retries. */
  lemma RejectedListAllowsRetry(
    s: Store, showDeleted: MaybeRef<bool>, startedAt: int, finishedAt: int,
    env: EnvironmentLookup, listRpc: bool -> Result<seq<Instance>>
  )
    requires s.Valid()
    requires ViewCacheKey(showDeleted) !in s.listCache
    requires listRpc(Unref(showDeleted)).Err?
    ensures WatcherFetches(CacheEntry(RunWatcher(s, showDeleted, startedAt, finishedAt, env, listRpc), ViewCacheKey(showDeleted)))
  {
  }

  /** `reset` clears the instances but keeps the list cache, so a view that was
      ready stays ready over an empty list and its watcher does not refetch. */
  lemma ResetKeepsCacheEntries(s: Store, showDeleted: MaybeRef<bool>)
    requires s.Valid()
    requires UseInstanceV1List(s, showDeleted).ready
    ensures UseInstanceV1List(Reset(s), showDeleted).ready
    ensures !WatcherFetches(CacheEntry(Reset(s), ViewCacheKey(showDeleted)))
    ensures UseInstanceV1List(Reset(s), showDeleted).instanceList == []
  {
  }
}

=== FILE: instance_store.dfy ===
/** The instance store: a map from resource name to composed instance that keeps
    JavaScript `Map` insertion order, a per-cache-key record of list fetches, the
    derived views over the map, and the actions that call the instance service and
    write the answers back. Every remote call is a function-valued parameter; a
    rejected call is an `Err`/`Fail` that the action propagates. */
module InstanceStore {
  import opened Wrappers
  import opened Sequences

  datatype State = StateUnspecified | Active | Deleted

  datatype Environment = Environment(name: string, title: string)

  /** The instance message fields the store reads or writes. */
  datatype Instance = Instance(name: string, title: string, state: State, environment: string, activation: bool)

  /** `ComposedInstance`: the raw instance plus its resolved environment. */
  datatype ComposedInstance = ComposedInstance(raw: Instance, environmentEntity: Environment) {
    function Name(): string { raw.name }
  }

  /** `unknownEnvironment()` and `unknownInstance()` from `@/types`. */
  const UnknownEnvironment: Environment := Environment("environments/-1", "")
  const UnknownInstance: ComposedInstance :=
    ComposedInstance(Instance("instances/-1", "", StateUnspecified, UnknownEnvironment.name, false), UnknownEnvironment)

  /** `useEnvironmentV1Store().getOrFetchEnvironmentByName`, `undefined` as `None`. */
  type EnvironmentLookup = string -> Option<Environment>

  /** `getResourceStoreCacheKey(kind, filter)`; its string encoding is not modelled. */
  datatype CacheKey = CacheKey(kind: string, filter: string)

  /** `StoreCache`: when a list fetch started or finished, and whether one is in flight. */
  datatype StoreCache = StoreCache(timestamp: int, isFetching: bool)

  /** `instanceMapByName`: entries plus the insertion order `values()` follows. */
  datatype InstanceMap = InstanceMap(order: seq<string>, byName: map<string, ComposedInstance>) {
    ghost predicate Valid() {
      && NoDup(order)
      && (forall n :: n in byName <==> n in order)
      && (forall n :: n in byName ==> byName[n].Name() == n)
    }
  }

  const EmptyInstanceMap: InstanceMap := InstanceMap([], map[])

  datatype Store = Store(listCache: map<CacheKey, StoreCache>, instances: InstanceMap) {
    ghost predicate Valid() { instances.Valid() }
  }

  /** The names carried by a list of composed instances. */
  function NamesOf(cs: seq<ComposedInstance>): set<string> {
    set c | c in cs :: c.Name()
  }

  /** Position `i` holds the last entry of `cs` with its name. */
  ghost predicate LastWithName(cs: seq<ComposedInstance>, i: int)
    requires 0 <= i < |cs|
  {
    forall j :: i < j < |cs| ==> cs[j].Name() != cs[i].Name()
  }

  /** `composeInstance`: attach the environment named by the instance, falling back
      to the unknown environment; the instance's own fields are kept. */
  function ComposeInstance(instance: Instance, env: EnvironmentLookup): (c: ComposedInstance)
    ensures c.raw == instance && c.Name() == instance.name
    ensures env(instance.environment).Some? ==> c.environmentEntity == env(instance.environment).value
    ensures env(instance.environment).None? ==> c.environmentEntity == UnknownEnvironment
  {
    ComposedInstance(instance, env(instance.environment).GetOr(UnknownEnvironment))
  }

  /** `Map.prototype.set`: overwrite in place, or append a new key at the end. */
  function Put(m: InstanceMap, c: ComposedInstance): (r: InstanceMap)
    requires m.Valid()
    ensures r.Valid()
    ensures r.byName == m.byName[c.Name() := c]
    ensures m.order <= r.order
  {
    if c.Name() in m.byName then InstanceMap(m.order, m.byName[c.Name() := c])
    else
      assert c.Name() !in m.order;
      InstanceMap(m.order + [c.Name()], m.byName[c.Name() := c])
  }

  /** The names of a non-empty list: the head's name and the tail's names. */
  lemma NamesOfCons(cs: seq<ComposedInstance>)
    requires |cs| > 0
    ensures NamesOf(cs) == {cs[0].Name()} + NamesOf(cs[1..])
  {
    assert forall c :: c in cs <==> c == cs[0] || c in cs[1..];
  }

  /** The `forEach(set)` loop of `upsertInstances`: every listed name is stored,
      and entries of names not listed are left as they were. */
  function PutAll(m: InstanceMap, cs: seq<ComposedInstance>): (r: InstanceMap)
    requires m.Valid()
    ensures r.Valid()
    ensures forall n :: n in r.byName <==> n in m.byName || n in NamesOf(cs)
    ensures forall n :: n in m.byName && n !in NamesOf(cs) ==> r.byName[n] == m.byName[n]
    ensures m.order <= r.order
    decreases |cs|
  {
    if |cs| == 0 then m
    else
      NamesOfCons(cs);
      PutAll(Put(m, cs[0]), cs[1..])
  }

  /** Later entries win: a name ends up mapped to its last occurrence in the list. */
  lemma {:induction false} PutAllLastWins(m: InstanceMap, cs: seq<ComposedInstance>, i: nat)
    requires m.Valid()
    requires i < |cs| && LastWithName(cs, i)
    ensures cs[i].Name() in PutAll(m, cs).byName
    ensures PutAll(m, cs).byName[cs[i].Name()] == cs[i]
    decreases |cs|
  {
    NamesOfCons(cs);
    var m1 := Put(m, cs[0]);
    if i == 0 {
      forall c | c in cs[1..] ensures c.Name() != cs[0].Name() {
        var j :| 0 <= j < |cs[1..]| && cs[1..][j] == c;
        assert cs[j + 1] == c;
      }
    } else {
      assert cs[i] == cs[1..][i - 1];
      assert LastWithName(cs[1..], i - 1) by {
        forall j | i - 1 < j < |cs[1..]| ensures cs[1..][j].Name() != cs[1..][i - 1].Name() {
          assert cs[1..][j] == cs[j + 1];
        }
      }
      PutAllLastWins(m1, cs[1..], i - 1);
    }
  }

  /** What an upsert returns together with the new store. */
  datatype Upserted = Upserted(store: Store, composed: seq<ComposedInstance>)

  /** `upsertInstances(list)`: compose every instance, write each under its name
      (last write wins) and return the composed list in input order. */
  function UpsertInstances(s: Store, list: seq<Instance>, env: EnvironmentLookup): (r: Upserted)
    requires s.Valid()
    ensures r.store.Valid()
    ensures r.store.listCache == s.listCache
    ensures |r.composed| == |list|
    ensures forall i :: 0 <= i < |list| ==> r.composed[i] == ComposeInstance(list[i], env)
    ensures forall i :: 0 <= i < |list| && LastWithName(r.composed, i) ==>
              GetInstanceByName(r.store, list[i].name) == r.composed[i]
    ensures forall n :: n in r.store.instances.byName <==> n in s.instances.byName || n in NamesOf(r.composed)
    ensures forall n :: n !in NamesOf(r.composed) ==> GetInstanceByName(r.store, n) == GetInstanceByName(s, n)
    ensures s.instances.order <= r.store.instances.order
  {
    var composed := seq(|list|, i requires 0 <= i < |list| => ComposeInstance(list[i], env));
    var stored := PutAll(s.instances, composed);
    forall i | 0 <= i < |list| && LastWithName(composed, i)
      ensures stored.byName[composed[i].Name()] == composed[i]
    {
      PutAllLastWins(s.instances, composed, i);
    }
    Upserted(Store(s.listCache, stored), composed)
  }

  /** `getInstanceByName`: the stored entry, or the unknown sentinel; never fails. */
  function GetInstanceByName(s: Store, name: string): (r: ComposedInstance)
    ensures name in s.instances.byName ==> r == s.instances.byName[name]
    ensures name !in s.instances.byName ==> r == UnknownInstance
  {
    if name in s.instances.byName then s.instances.byName[name] else UnknownInstance
  }

  /** Upserting one instance and reading it back by name returns it, composed. */
  lemma UpsertThenGet(s: Store, instance: Instance, env: EnvironmentLookup)
    requires s.Valid()
    ensures GetInstanceByName(UpsertInstances(s, [instance], env).store, instance.name).raw == instance
  {
    var r := UpsertInstances(s, [instance], env);
    assert LastWithName(r.composed, 0);
  }

  /** `reset`: forget every instance; the list cache is left as it is. */
  function Reset(s: Store): (r: Store)
    ensures r.Valid()
    ensures r.listCache == s.listCache
    ensures forall n :: GetInstanceByName(r, n) == UnknownInstance
    ensures r.instances == EmptyInstanceMap
  {
    Store(s.listCache, EmptyInstanceMap)
  }

  /** The stored values in the given key order. */
  function ValuesInOrder(order: seq<string>, byName: map<string, ComposedInstance>): (r: seq<ComposedInstance>)
    requires forall n :: n in order ==> n in byName
    ensures |r| == |order|
    ensures forall i :: 0 <= i < |order| ==> r[i] == byName[order[i]]
  {
    if |order| == 0 then [] else [byName[order[0]]] + ValuesInOrder(order[1..], byName)
  }

  /** `instanceList`: `Array.from(instanceMapByName.values())`, in insertion order. */
  function InstanceList(s: Store): (r: seq<ComposedInstance>)
    requires s.Valid()
    ensures |r| == |s.instances.order|
    ensures forall i :: 0 <= i < |r| ==> r[i] == s.instances.byName[s.instances.order[i]]
    ensures forall i, j :: 0 <= i < j < |r| ==> r[i].Name() != r[j].Name()
    ensures forall c :: c in r <==> c in s.instances.byName.Values
  {
    var r := ValuesInOrder(s.instances.order, s.instances.byName);
    assert forall c :: c in s.instances.byName.Values ==> c in r by {
      forall c | c in s.instances.byName.Values ensures c in r {
        var n :| n in s.instances.byName && s.instances.byName[n] == c;
        var i :| 0 <= i < |s.instances.order| && s.instances.order[i] == n;
        assert r[i] == c;
      }
    }
    r
  }

  /** The entries whose state is active, in order. */
  function FilterActive(cs: seq<ComposedInstance>): (r: seq<ComposedInstance>)
    ensures forall c :: c in r <==> c in cs && c.raw.state == Active
    ensures IsSubsequence(r, cs)
    decreases |cs|
  {
    if |cs| == 0 then []
    else
      var rest := FilterActive(cs[1..]);
      assert forall c :: c in cs <==> c == cs[0] || c in cs[1..];
      if cs[0].raw.state == Active then
        assert ([cs[0]] + rest)[1..] == rest;
        [cs[0]] + rest
      else
        SubsequenceOfTail(rest, cs);
        rest
  }

  /** `activeInstanceList`: exactly the stored instances in the active state. */
  function ActiveInstanceList(s: Store): (r: seq<ComposedInstance>)
    requires s.Valid()
    ensures forall c :: c in r <==> c in s.instances.byName.Values && c.raw.state == Active
    ensures IsSubsequence(r, InstanceList(s))
  {
    FilterActive(InstanceList(s))
  }

  /** The counting loop of `activateInstanceCount`. */
  function CountActivated(cs: seq<ComposedInstance>): (r: nat)
    ensures r <= |cs|
    ensures r == 0 <==> forall c :: c in cs ==> !c.raw.activation
    ensures r == |cs| <==> forall c :: c in cs ==> c.raw.activation
    decreases |cs|
  {
    if |cs| == 0 then 0
    else
      assert forall c :: c in cs <==> c == cs[0] || c in cs[1..];
      (if cs[0].raw.activation then 1 else 0) + CountActivated(cs[1..])
  }

  /** `activateInstanceCount`: active instances that carry an activation, so never
      more than the active list. */
  function ActivateInstanceCount(s: Store): (r: nat)
    requires s.Valid()
    ensures r <= |ActiveInstanceList(s)|
    ensures r == 0 <==> forall c :: c in s.instances.byName.Values && c.raw.state == Active ==> !c.raw.activation
  {
    CountActivated(ActiveInstanceList(s))
  }

  /** An instance that the activation count counts. */
  predicate CountsAsActivated(c: ComposedInstance) {
    c.raw.state == Active && c.raw.activation
  }

  /** The names in `order` whose stored instance is active and activated. */
  ghost function ActivatedAmong(order: seq<string>, byName: map<string, ComposedInstance>): set<string> {
    set n | n in order && n in byName && CountsAsActivated(byName[n])
  }

  /** One step of the count over a filtered list. */
  lemma CountFilterCons(cs: seq<ComposedInstance>)
    requires |cs| > 0
    ensures CountActivated(FilterActive(cs))
         == (if CountsAsActivated(cs[0]) then 1 else 0) + CountActivated(FilterActive(cs[1..]))
  {
    var fr := FilterActive(cs[1..]);
    if cs[0].raw.state == Active {
      assert FilterActive(cs) == [cs[0]] + fr;
      assert ([cs[0]] + fr)[1..] == fr;
    }
  }

  /** One step of the key set over a duplicate-free order. */
  lemma ActivatedAmongCons(order: seq<string>, byName: map<string, ComposedInstance>)
    requires |order| > 0 && NoDup(order)
    ensures order[0] !in ActivatedAmong(order[1..], byName)
    ensures ActivatedAmong(order, byName)
         == (if order[0] in byName && CountsAsActivated(byName[order[0]]) then {order[0]} else {})
            + ActivatedAmong(order[1..], byName)
  {
    assert forall n :: n in order <==> n == order[0] || n in order[1..];
    assert order[0] !in order[1..];
  }

  /** Counting over a duplicate-free key order equals the size of the matching key set. */
  lemma {:induction false} CountOverOrder(order: seq<string>, byName: map<string, ComposedInstance>)
    requires NoDup(order) && forall n :: n in order ==> n in byName
    ensures CountActivated(FilterActive(ValuesInOrder(order, byName))) == |ActivatedAmong(order, byName)|
    decreases |order|
  {
    if |order| == 0 {
      assert ActivatedAmong(order, byName) == {};
    } else {
      var vs := ValuesInOrder(order, byName);
      assert NoDup(order[1..]);
      CountOverOrder(order[1..], byName);
      assert vs[1..] == ValuesInOrder(order[1..], byName);
      CountFilterCons(vs);
      ActivatedAmongCons(order, byName);
    }
  }

  /** `activateInstanceCount` equals the number of distinct stored names whose
      instance is active and activated. */
  lemma ActivateInstanceCountIsCardinality(s: Store)
    requires s.Valid()
    ensures ActivateInstanceCount(s) == |ActivatedAmong(s.instances.order, s.instances.byName)|
    ensures forall n :: n in ActivatedAmong(s.instances.order, s.instances.byName)
              <==> n in s.instances.byName && CountsAsActivated(s.instances.byName[n])
  {
    CountOverOrder(s.instances.order, s.instances.byName);
  }

  /** The answer of an action that stores one instance and returns it. */
  datatype Stored = Stored(store: Store, instance: ComposedInstance)

  /** `upsertInstances([instance])` followed by `composed[0]`. */
  function UpsertOne(s: Store, instance: Instance, env: EnvironmentLookup): (r: Stored)
    requires s.Valid()
    ensures r.store.Valid() && r.store.listCache == s.listCache
    ensures r.instance == ComposeInstance(instance, env)
    ensures GetInstanceByName(r.store, instance.name) == r.instance
    ensures forall n :: n != instance.name ==> GetInstanceByName(r.store, n) == GetInstanceByName(s, n)
  {
    var u := UpsertInstances(s, [instance], env);
    var c := ComposeInstance(instance, env);
    assert u.composed == [c];
    assert LastWithName(u.composed, 0);
    assert NamesOf(u.composed) == {instance.name} by {
      assert forall x :: x in u.composed <==> x == c;
    }
    Stored(u.store, c)
  }

  /** `createInstance`: the server's answer is stored under its own name. */
  function CreateInstance(
    s: Store, instance: Instance, env: EnvironmentLookup,
    createRpc: (Instance, string) -> Result<Instance>, extractInstanceResourceName: string -> string
  ): (r: Result<Stored>)
    requires s.Valid()
    ensures createRpc(instance, extractInstanceResourceName(instance.name)).Err? <==> r.Err?
    ensures r.Ok? ==> var created := createRpc(instance, extractInstanceResourceName(instance.name)).value;
              r.value.instance.raw == created && GetInstanceByName(r.value.store, created.name) == r.value.instance
    ensures r.Ok? ==> r.value.instance == ComposeInstance(createRpc(instance, extractInstanceResourceName(instance.name)).value, env)
    ensures r.Ok? ==> var created := createRpc(instance, extractInstanceResourceName(instance.name)).value;
              && r.value.store.Valid()
              && r.value.store.listCache == s.listCache
              && (forall n :: n != created.name ==> GetInstanceByName(r.value.store, n) == GetInstanceByName(s, n))
  {
    var created :- createRpc(instance, extractInstanceResourceName(instance.name));
    Ok(UpsertOne(s, created, env))
  }

  /** `updateInstance`: the server's answer is stored under its own name. */
  function UpdateInstance(
    s: Store, instance: Instance, updateMask: seq<string>, env: EnvironmentLookup,
    updateRpc: (Instance, seq<string>) -> Result<Instance>
  ): (r: Result<Stored>)
    requires s.Valid()
    ensures updateRpc(instance, updateMask).Err? <==> r.Err?
    ensures r.Ok? ==> var updated := updateRpc(instance, updateMask).value;
              r.value.instance.raw == updated && GetInstanceByName(r.value.store, updated.name) == r.value.instance
    ensures r.Ok? ==> r.value.instance == ComposeInstance(updateRpc(instance, updateMask).value, env)
    ensures r.Ok? ==> var updated := updateRpc(instance, updateMask).value;
              && r.value.store.Valid()
              && r.value.store.listCache == s.listCache
              && (forall n :: n != updated.name ==> GetInstanceByName(r.value.store, n) == GetInstanceByName(s, n))
  {
    var updated :- updateRpc(instance, updateMask);
    Ok(UpsertOne(s, updated, env))
  }

  /** `archiveInstance`: after the server deletes it, store it with state DELETED,
      so it leaves the active list; nothing else changes. */
  function ArchiveInstance(
    s: Store, instance: Instance, force: bool, env: EnvironmentLookup,
    deleteRpc: (string, bool) -> Outcome
  ): (r: Result<Stored>)
    requires s.Valid()
    ensures deleteRpc(instance.name, force).Fail? <==> r.Err?
    ensures r.Ok? ==> r.value.store.Valid()
    ensures r.Ok? ==>
      && r.value.instance.raw == instance.(state := Deleted)
      && r.value.instance == ComposeInstance(instance.(state := Deleted), env)
      && GetInstanceByName(r.value.store, instance.name) == r.value.instance
      && (forall c :: c in ActiveInstanceList(r.value.store) ==> c.Name() != instance.name)
      && (forall n :: n != instance.name ==> GetInstanceByName(r.value.store, n) == GetInstanceByName(s, n))
      && r.value.store.listCache == s.listCache
  {
    match deleteRpc(instance.name, force)
    case Fail(e) => Err(e)
    case Pass =>
      var stored := UpsertOne(s, instance.(state := Deleted), env);
      assert forall c :: c in stored.store.instances.byName.Values && c.Name() == instance.name ==> c == stored.instance;
      Ok(stored)
  }

  /** `restoreInstance`: after the server undeletes it, store it with state ACTIVE,
      so it re-enters the active list; nothing else changes. */
  function RestoreInstance(
    s: Store, instance: Instance, env: EnvironmentLookup,
    undeleteRpc: string -> Outcome
  ): (r: Result<Stored>)
    requires s.Valid()
    ensures undeleteRpc(instance.name).Fail? <==> r.Err?
    ensures r.Ok? ==> r.value.store.Valid()
    ensures r.Ok? ==>
      && r.value.instance.raw == instance.(state := Active)
      && r.value.instance == ComposeInstance(instance.(state := Active), env)
      && GetInstanceByName(r.value.store, instance.name) == r.value.instance
      && r.value.instance in ActiveInstanceList(r.value.store)
      && (forall n :: n != instance.name ==> GetInstanceByName(r.value.store, n) == GetInstanceByName(s, n))
      && r.value.store.listCache == s.listCache
  {
    match undeleteRpc(instance.name)
    case Fail(e) => Err(e)
    case Pass =>
      var stored := UpsertOne(s, instance.(state := Active), env);
      assert instance.name in stored.store.instances.byName;
      Ok(stored)
  }

  /** What a lookup returns: the new store, the instance, and whether it went remote. */
  datatype Lookup = Lookup(store: Store, instance: ComposedInstance, fetched: bool)

  /** `fetchInstanceByName`: fetch, store under the answer's own name, return it. */
  function FetchInstanceByName(s: Store, name: string, env: EnvironmentLookup, getRpc: string -> Result<Instance>): (r: Result<Stored>)
    requires s.Valid()
    ensures getRpc(name).Err? <==> r.Err?
    ensures r.Ok? ==> r.value.instance.raw == getRpc(name).value && r.value.store.Valid()
    ensures r.Ok? ==> r.value.instance == ComposeInstance(getRpc(name).value, env)
    ensures r.Ok? ==> GetInstanceByName(r.value.store, getRpc(name).value.name) == r.value.instance
    ensures r.Ok? ==> r.value.store.listCache == s.listCache
    ensures r.Ok? ==> forall n :: n != getRpc(name).value.name ==>
              GetInstanceByName(r.value.store, n) == GetInstanceByName(s, n)
  {
    var fetched :- getRpc(name);
    Ok(UpsertOne(s, fetched, env))
  }

  /** `getOrFetchInstanceByName`: a cached entry is returned without a remote call;
      otherwise fetch, upsert, and read back by the requested name (which yields the
      unknown sentinel if the server answered under another name). */
  function GetOrFetchInstanceByName(s: Store, name: string, env: EnvironmentLookup, getRpc: string -> Result<Instance>): (r: Result<Lookup>)
    requires s.Valid()
    ensures name in s.instances.byName ==> r == Ok(Lookup(s, s.instances.byName[name], false))
    ensures name !in s.instances.byName ==> (getRpc(name).Err? <==> r.Err?)
    ensures name !in s.instances.byName && r.Ok? ==>
      var fetched := getRpc(name).value;
      && r.value.fetched
      && r.value.store.Valid()
      && r.value.store.listCache == s.listCache
      && GetInstanceByName(r.value.store, fetched.name) == ComposeInstance(fetched, env)
      && (forall n :: n != fetched.name ==> GetInstanceByName(r.value.store, n) == GetInstanceByName(s, n))
      && r.value.instance == GetInstanceByName(r.value.store, name)
      && (fetched.name == name ==> r.value.instance == ComposeInstance(fetched, env))
      && (fetched.name != name ==> r.value.instance == UnknownInstance)
  {
    if name in s.instances.byName then Ok(Lookup(s, s.instances.byName[name], false))
    else
      var stored :- FetchInstanceByName(s, name, env, getRpc);
      Ok(Lookup(stored.store, GetInstanceByName(stored.store, name), true))
  }

  /** A second lookup of a name just fetched is served from the map. */
  lemma GetOrFetchThenCached(s: Store, name: string, env: EnvironmentLookup, getRpc: string -> Result<Instance>)
    requires s.Valid()
    requires GetOrFetchInstanceByName(s, name, env, getRpc).Ok?
    requires getRpc(name).Ok? ==> getRpc(name).value.name == name
    ensures var first := GetOrFetchInstanceByName(s, name, env, getRpc).value;
            GetOrFetchInstanceByName(first.store, name, env, getRpc) == Ok(Lookup(first.store, first.instance, false))
  {
  }

  /** The list-cache key: `("instance", "")` when deleted instances are listed too,
      `("instance", "active")` otherwise. */
  function ListCacheKey(showDeleted: bool): (k: CacheKey)
    ensures k.kind == "instance"
    ensures k.filter == "" <==> showDeleted
  {
    CacheKey("instance", if showDeleted then "" else "active")
  }

  /** First half of `listInstances`, before the remote call: mark a missing cache
      entry as in flight; an existing entry is left alone. */
  function BeginListInstances(s: Store, showDeleted: bool, now: int): (r: Store)
    ensures r.instances == s.instances
    ensures ListCacheKey(showDeleted) in r.listCache
    ensures ListCacheKey(showDeleted) !in s.listCache ==> r.listCache[ListCacheKey(showDeleted)] == StoreCache(now, true)
    ensures ListCacheKey(showDeleted) in s.listCache ==> r.listCache == s.listCache
    ensures forall k :: k != ListCacheKey(showDeleted) && k in s.listCache ==> k in r.listCache && r.listCache[k] == s.listCache[k]
  {
    var key := ListCacheKey(showDeleted);
    if key !in s.listCache then Store(s.listCache[key := StoreCache(now, true)], s.instances) else s
  }

  /** The outcome of a list fetch: the store afterwards and what the caller gets. */
  datatype Listed = Listed(store: Store, result: Result<seq<ComposedInstance>>)

  /** Second half of `listInstances`, after the remote call resolved: upsert the
      listed instances and mark the entry settled with a fresh timestamp. */
  function FinishListInstances(s: Store, showDeleted: bool, finishedAt: int, instances: seq<Instance>, env: EnvironmentLookup): (r: Listed)
    requires s.Valid()
    ensures r.store.Valid()
    ensures r.store.listCache == s.listCache[ListCacheKey(showDeleted) := StoreCache(finishedAt, false)]
    ensures r.result.Ok? && |r.result.value| == |instances|
    ensures forall i :: 0 <= i < |instances| ==> r.result.value[i].raw == instances[i]
    ensures forall c :: c in r.result.value ==> c.Name() in r.store.instances.byName
    // the map and the result are exactly those of upserting the listed instances
    ensures r.store.instances == UpsertInstances(s, instances, env).store.instances
    ensures r.result == Ok(UpsertInstances(s, instances, env).composed)
  {
    var u := UpsertInstances(s, instances, env);
    assert forall c :: c in u.composed ==> c.Name() in NamesOf(u.composed);
    Listed(Store(s.listCache[ListCacheKey(showDeleted) := StoreCache(finishedAt, false)], u.store.instances), Ok(u.composed))
  }

  /** `listInstances(showDeleted)` as the source writes it: on success every listed
      instance is upserted and the entry is marked settled; a rejected call leaves
      the entry as the first half set it, in flight. */
  function ListInstancesAsWritten(
    s: Store, showDeleted: bool, startedAt: int, finishedAt: int,
    env: EnvironmentLookup, listRpc: bool -> Result<seq<Instance>>
  ): (r: Listed)
    requires s.Valid()
    ensures r.store.Valid()
    ensures listRpc(showDeleted).Err? ==> r.result.Err? && r.store == BeginListInstances(s, showDeleted, startedAt)
    ensures listRpc(showDeleted).Ok? ==>
      && r.result.Ok? && |r.result.value| == |listRpc(showDeleted).value|
      && r.store.listCache == s.listCache[ListCacheKey(showDeleted) := StoreCache(finishedAt, false)]
    ensures listRpc(showDeleted).Ok? ==>
      var u := UpsertInstances(s, listRpc(showDeleted).value, env);
      && r.store.instances == u.store.instances
      && r.result == Ok(u.composed)
  {
    var begun := BeginListInstances(s, showDeleted, startedAt);
    match listRpc(showDeleted)
    case Err(e) => Listed(begun, Err(e))
    case Ok(instances) =>
      var key := ListCacheKey(showDeleted);
      assert begun.listCache[key := StoreCache(finishedAt, false)] == s.listCache[key := StoreCache(finishedAt, false)];
      FinishListInstances(begun, showDeleted, finishedAt, instances, env)
  }

  /** `listInstances(showDeleted)` with the in-flight flag cleared on every path:
      the entry this call created is dropped again when the call is rejected, so a
      later watcher run can retry. On success it behaves like the source. */
  function ListInstances(
    s: Store, showDeleted: bool, startedAt: int, finishedAt: int,
    env: EnvironmentLookup, listRpc: bool -> Result<seq<Instance>>
  ): (r: Listed)
    requires s.Valid()
    ensures r.store.Valid()
    ensures listRpc(showDeleted).Ok? ==> r == ListInstancesAsWritten(s, showDeleted, startedAt, finishedAt, env, listRpc)
    ensures listRpc(showDeleted).Err? ==> r.result.Err? && r.store == s
    ensures listRpc(showDeleted).Ok? ==>
      var key := ListCacheKey(showDeleted);
      && r.result.Ok?
      && key in r.store.listCache && !r.store.listCache[key].isFetching
      && (forall i :: 0 <= i < |r.result.value| ==> r.result.value[i].raw == listRpc(showDeleted).value[i])
      && (forall c :: c in r.result.value ==> c.Name() in r.store.instances.byName)
  {
    match listRpc(showDeleted)
    case Err(e) => Listed(s, Err(e))
    case Ok(instances) => ListInstancesAsWritten(s, showDeleted, startedAt, finishedAt, env, listRpc)
  }
}

=== FILE: issue_creation.dfy ===
/** `experimentalCreateIssueByPlan`: create a plan, then an issue that references
    it, then a rollout for the plan, calling the caller's optional hook after each
    step. A rejected step ends the sequence; nothing already created is undone.
    The returned trace lists the creation calls and hook calls in the order they
    happen. */
module IssueCreation {
  import opened Wrappers
  import opened Resources
  import opened ExperimentalIssue

  /** Which of the optional hooks of `Partial<CreateIssueHooks>` were supplied. */
  datatype Hooks = Hooks(planCreated: bool, issueCreated: bool, rolloutCreated: bool)

  /** One observable step of the sequence. */
  datatype Step =
    | CreatePlanCall(parent: string, plan: Plan)
    | PlanCreatedHook(plan: Plan)
    | CreateIssueCall(parent: string, issue: Issue)
    | IssueCreatedHook(issue: Issue, plan: Plan)
    | CreateRolloutCall(parent: string, rollout: Rollout)
    | RolloutCreatedHook(issue: Issue, plan: Plan, rollout: Rollout)

  /** The position of a step in the fixed order plan, issue, rollout. */
  function Rank(s: Step): nat {
    match s
    case CreatePlanCall(_, _) => 0
    case PlanCreatedHook(_) => 1
    case CreateIssueCall(_, _) => 2
    case IssueCreatedHook(_, _) => 3
    case CreateRolloutCall(_, _) => 4
    case RolloutCreatedHook(_, _, _) => 5
  }

  predicate IsCreateCall(s: Step) {
    s.CreatePlanCall? || s.CreateIssueCall? || s.CreateRolloutCall?
  }

  /** The steps happen in the fixed order, each at most once: every step ranks
      strictly above the one before it. */
  predicate InOrder(trace: seq<Step>) {
    forall i :: 0 < i < |trace| ==> Rank(trace[i - 1]) < Rank(trace[i])
  }

  /** An ordered trace ranks every later step above every earlier one, so no step
      appears twice. */
  lemma {:induction false} InOrderIsStrictlyIncreasing(trace: seq<Step>, i: nat, j: nat)
    requires InOrder(trace)
    requires i < j < |trace|
    ensures Rank(trace[i]) < Rank(trace[j])
    decreases j - i
  {
    if i + 1 < j {
      InOrderIsStrictlyIncreasing(trace, i, j - 1);
    }
  }

  /** What the sequence returns on success. */
  datatype Created = Created(createdPlan: Plan, createdIssue: Issue, createdRollout: Rollout)

  /** The outcome and the trace of steps that ran. */
  datatype Creation = Creation(result: Result<Created>, trace: seq<Step>)

  /** The creation services: each returns the created resource or rejects. */
  datatype CreationServices = CreationServices(
    createPlan: (string, Plan) -> Result<Plan>,
    createIssue: (string, Issue) -> Result<Issue>,
    createRollout: (string, Rollout) -> Result<Rollout>)

  /** The hook step, when that hook was supplied. */
  function HookStep(present: bool, step: Step): seq<Step> {
    if present then [step] else []
  }

  /** Append `step` to an ordered trace when `happens`; the trace stays ordered. */
  function Then(trace: seq<Step>, happens: bool, step: Step): (r: seq<Step>)
    requires InOrder(trace)
    requires |trace| > 0 ==> Rank(trace[|trace| - 1]) < Rank(step)
    ensures InOrder(r)
    ensures r == if happens then trace + [step] else trace
    ensures happens ==> |r| > 0 && r[|r| - 1] == step
    ensures |trace| > 0 ==> |r| > 0 && r[0] == trace[0]
  {
    if happens then trace + [step]
    else trace
  }

  /** The creation call in `step` was rejected by its service with `e`. */
  predicate RejectedWith(step: Step, svc: CreationServices, e: RpcError) {
    match step
    case CreatePlanCall(parent, plan) => svc.createPlan(parent, plan) == Err(e)
    case CreateIssueCall(parent, issue) => svc.createIssue(parent, issue) == Err(e)
    case CreateRolloutCall(parent, rollout) => svc.createRollout(parent, rollout) == Err(e)
    case _ => false
  }

  /** Two ordered traces joined where the first ends below where the second
      starts form one ordered trace. */
  lemma {:induction false} InOrderAppend(a: seq<Step>, b: seq<Step>)
    requires InOrder(a) && InOrder(b)
    requires |a| > 0 && |b| > 0 ==> Rank(a[|a| - 1]) < Rank(b[0])
    ensures InOrder(a + b)
  {
    forall i | 0 < i < |a + b|
      ensures Rank((a + b)[i - 1]) < Rank((a + b)[i])
    {
      if i < |a| {
        assert (a + b)[i - 1] == a[i - 1] && (a + b)[i] == a[i];
      } else if i == |a| {
        assert (a + b)[i - 1] == a[|a| - 1] && (a + b)[i] == b[0];
      } else {
        assert (a + b)[i - 1] == b[i - 1 - |a|] && (a + b)[i] == b[i - |a|];
      }
    }
  }

  /** `experimentalCreateIssueByPlan(project, issueCreate, planCreate, hooks)`. */
  function CreateIssueByPlan(
    project: Project, issueCreate: Issue, planCreate: Plan, hooks: Option<Hooks>, svc: CreationServices
  ): (r: Creation)
    ensures InOrder(r.trace)
    ensures |r.trace| > 0 && r.trace[0] == CreatePlanCall(project.name, planCreate)
    // a failed run ends on the creation call whose service rejected, with its error
    ensures r.result.Err? ==> RejectedWith(r.trace[|r.trace| - 1], svc, r.result.error)
    ensures svc.createPlan(project.name, planCreate).Err? <==> r.trace == [CreatePlanCall(project.name, planCreate)]
    ensures svc.createPlan(project.name, planCreate).Err? ==> r.result.Err?
    ensures |r.trace| > 1 && r.trace[1].PlanCreatedHook? ==> r.trace[1].plan == planCreate
  {
    var hs := hooks.GetOr(Hooks(false, false, false));
    var planCall := [CreatePlanCall(project.name, planCreate)];
    match svc.createPlan(project.name, planCreate)
    case Err(e) => Creation(Err(e), planCall)
    case Ok(createdPlan) =>
      var afterPlan := Then(planCall, hs.planCreated, PlanCreatedHook(planCreate));
      var rest := IssueStage(project, issueCreate, createdPlan, hs, svc);
      InOrderAppend(afterPlan, rest.trace);
      Creation(rest.result, afterPlan + rest.trace)
  }

  /** After the plan exists: create the issue that references it, then go on to
      the rollout. The result carries the steps from the issue call on. */
  function IssueStage(
    project: Project, issueCreate: Issue, createdPlan: Plan, hs: Hooks, svc: CreationServices
  ): (r: Creation)
    ensures InOrder(r.trace)
    ensures |r.trace| > 0 && r.trace[0] == CreateIssueCall(project.name, issueCreate.(plan := createdPlan.name))
    ensures r.result.Err? ==> RejectedWith(r.trace[|r.trace| - 1], svc, r.result.error)
    ensures var issueSent := issueCreate.(plan := createdPlan.name);
            (svc.createIssue(project.name, issueSent).Ok? && svc.createRollout(project.name, Rollout("", createdPlan.name)).Ok?)
            ==> r.result.Ok?
  {
    var issueSent := issueCreate.(plan := createdPlan.name);
    var issueCall := [CreateIssueCall(project.name, issueSent)];
    match svc.createIssue(project.name, issueSent)
    case Err(e) => Creation(Err(e), issueCall)
    case Ok(createdIssue) =>
      var afterIssue := Then(issueCall, hs.issueCreated, IssueCreatedHook(createdIssue, createdPlan));
      var rest := RolloutStage(project, createdPlan, createdIssue, hs, svc);
      InOrderAppend(afterIssue, rest.trace);
      Creation(rest.result, afterIssue + rest.trace)
  }

  /** After the issue exists: create the rollout for the plan and link it to the
      issue. The result carries the steps from the rollout call on. */
  function RolloutStage(
    project: Project, createdPlan: Plan, createdIssue: Issue, hs: Hooks, svc: CreationServices
  ): (r: Creation)
    ensures InOrder(r.trace)
    ensures |r.trace| > 0 && r.trace[0] == CreateRolloutCall(project.name, Rollout("", createdPlan.name))
    ensures r.result.Err? ==> RejectedWith(r.trace[|r.trace| - 1], svc, r.result.error)
    ensures svc.createRollout(project.name, Rollout("", createdPlan.name)).Ok? ==> r.result.Ok?
  {
    var rolloutSent := Rollout("", createdPlan.name);
    var rolloutCall := [CreateRolloutCall(project.name, rolloutSent)];
    match svc.createRollout(project.name, rolloutSent)
    case Err(e) => Creation(Err(e), rolloutCall)
    case Ok(createdRollout) =>
      var linked := createdIssue.(rollout := createdRollout.name);
      var trace := Then(rolloutCall, hs.rolloutCreated, RolloutCreatedHook(linked, createdPlan, createdRollout));
      Creation(Ok(Created(createdPlan, linked, createdRollout)), trace)
  }

  /** A run succeeds when all three creation calls resolve; with
      `CreationLinksResources` this is an if-and-only-if. */
  lemma CreationSucceedsWhenAllResolve(
    project: Project, issueCreate: Issue, planCreate: Plan, hooks: Option<Hooks>, svc: CreationServices
  )
    requires svc.createPlan(project.name, planCreate).Ok?
    requires var planName := svc.createPlan(project.name, planCreate).value.name;
             && svc.createIssue(project.name, issueCreate.(plan := planName)).Ok?
             && svc.createRollout(project.name, Rollout("", planName)).Ok?
    ensures CreateIssueByPlan(project, issueCreate, planCreate, hooks, svc).result.Ok?
  {
    var hs := hooks.GetOr(Hooks(false, false, false));
    var createdPlan := svc.createPlan(project.name, planCreate).value;
    assert CreateIssueByPlan(project, issueCreate, planCreate, hooks, svc).result
        == IssueStage(project, issueCreate, createdPlan, hs, svc).result;
  }

  /** No step runs twice: every later step of a run ranks above every earlier one. */
  lemma CreationStepsAtMostOnce(
    project: Project, issueCreate: Issue, planCreate: Plan, hooks: Option<Hooks>, svc: CreationServices
  )
    ensures var r := CreateIssueByPlan(project, issueCreate, planCreate, hooks, svc);
            && (forall i, j :: 0 <= i < j < |r.trace| ==> Rank(r.trace[i]) < Rank(r.trace[j]))
            && (forall i, j :: 0 <= i < j < |r.trace| ==> r.trace[i] != r.trace[j])
  {
    var r := CreateIssueByPlan(project, issueCreate, planCreate, hooks, svc);
    forall i, j | 0 <= i < j < |r.trace|
      ensures Rank(r.trace[i]) < Rank(r.trace[j])
    {
      InOrderIsStrictlyIncreasing(r.trace, i, j);
    }
  }

  /** The creation calls in a trace, without the hook calls. */
  function CreateCalls(trace: seq<Step>): seq<Step> {
    if |trace| == 0 then []
    else (if IsCreateCall(trace[0]) then [trace[0]] else []) + CreateCalls(trace[1..])
  }

  /** A successful run links the three resources: the issue request carries the
      created plan's name, the rollout request carries it too, and the returned
      issue carries the created rollout's name. */
  lemma CreationLinksResources(
    project: Project, issueCreate: Issue, planCreate: Plan, hooks: Option<Hooks>, svc: CreationServices
  )
    requires CreateIssueByPlan(project, issueCreate, planCreate, hooks, svc).result.Ok?
    ensures var r := CreateIssueByPlan(project, issueCreate, planCreate, hooks, svc);
            var c := r.result.value;
            var issueSent := issueCreate.(plan := c.createdPlan.name);
            var rolloutSent := Rollout("", c.createdPlan.name);
            && svc.createPlan(project.name, planCreate) == Ok(c.createdPlan)
            && svc.createIssue(project.name, issueSent).Ok?
            && svc.createRollout(project.name, rolloutSent) == Ok(c.createdRollout)
            && c.createdIssue == svc.createIssue(project.name, issueSent).value.(rollout := c.createdRollout.name)
            && c.createdIssue.rollout == c.createdRollout.name
            && r.trace == SuccessTrace(project, planCreate, issueSent, rolloutSent,
                                       svc.createIssue(project.name, issueSent).value, c, hooks)
  {
    var hs := hooks.GetOr(Hooks(false, false, false));
    var createdPlan := svc.createPlan(project.name, planCreate).value;
    var t0 := [CreatePlanCall(project.name, planCreate)];
    var t1 := Then(t0, hs.planCreated, PlanCreatedHook(planCreate));
    assert t1 == t0 + HookStep(hs.planCreated, PlanCreatedHook(planCreate));
    var rest := IssueStage(project, issueCreate, createdPlan, hs, svc);
    assert CreateIssueByPlan(project, issueCreate, planCreate, hooks, svc) == Creation(rest.result, t1 + rest.trace);
    IssueStageSucceeds(project, issueCreate, createdPlan, hs, svc);
    var c := rest.result.value;
    var issueSent := issueCreate.(plan := createdPlan.name);
    Regroup(t0, HookStep(hs.planCreated, PlanCreatedHook(planCreate)),
            [CreateIssueCall(project.name, issueSent)],
            HookStep(hs.issueCreated, IssueCreatedHook(svc.createIssue(project.name, issueSent).value, createdPlan)),
            [CreateRolloutCall(project.name, Rollout("", createdPlan.name))],
            HookStep(hs.rolloutCreated, RolloutCreatedHook(c.createdIssue, createdPlan, c.createdRollout)));
  }

  /** Regrouping a concatenation of six pieces. */
  lemma Regroup<T>(a: seq<T>, b: seq<T>, x: seq<T>, y: seq<T>, z: seq<T>, w: seq<T>)
    ensures a + b + (x + y + z + w) == a + b + x + y + z + w
  {
  }

  /** A successful issue stage: the issue request carries the plan's name, and the
      rollout stage that follows succeeds too. */
  lemma IssueStageSucceeds(
    project: Project, issueCreate: Issue, createdPlan: Plan, hs: Hooks, svc: CreationServices
  )
    requires IssueStage(project, issueCreate, createdPlan, hs, svc).result.Ok?
    ensures var issueSent := issueCreate.(plan := createdPlan.name);
            var r := IssueStage(project, issueCreate, createdPlan, hs, svc);
            var c := r.result.value;
            var rolloutSent := Rollout("", createdPlan.name);
            && svc.createIssue(project.name, issueSent).Ok?
            && c.createdPlan == createdPlan
            && svc.createRollout(project.name, rolloutSent) == Ok(c.createdRollout)
            && c.createdIssue == svc.createIssue(project.name, issueSent).value.(rollout := c.createdRollout.name)
            && r.trace == [CreateIssueCall(project.name, issueSent)]
                          + HookStep(hs.issueCreated, IssueCreatedHook(svc.createIssue(project.name, issueSent).value, createdPlan))
                          + [CreateRolloutCall(project.name, rolloutSent)]
                          + HookStep(hs.rolloutCreated, RolloutCreatedHook(c.createdIssue, createdPlan, c.createdRollout))
  {
    var issueSent := issueCreate.(plan := createdPlan.name);
    var createdIssue := svc.createIssue(project.name, issueSent).value;
    var t2 := [CreateIssueCall(project.name, issueSent)];
    var t3 := Then(t2, hs.issueCreated, IssueCreatedHook(createdIssue, createdPlan));
    assert t3 == t2 + HookStep(hs.issueCreated, IssueCreatedHook(createdIssue, createdPlan));
    RolloutStageSucceeds(project, createdPlan, createdIssue, hs, svc);
  }

  /** A successful rollout stage: the rollout request carries the plan's name and
      the returned issue carries the created rollout's name. */
  lemma RolloutStageSucceeds(
    project: Project, createdPlan: Plan, createdIssue: Issue, hs: Hooks, svc: CreationServices
  )
    requires RolloutStage(project, createdPlan, createdIssue, hs, svc).result.Ok?
    ensures var r := RolloutStage(project, createdPlan, createdIssue, hs, svc);
            var c := r.result.value;
            var rolloutSent := Rollout("", createdPlan.name);
            && svc.createRollout(project.name, rolloutSent) == Ok(c.createdRollout)
            && c == Created(createdPlan, createdIssue.(rollout := c.createdRollout.name), c.createdRollout)
            && r.trace == [CreateRolloutCall(project.name, rolloutSent)]
                          + HookStep(hs.rolloutCreated, RolloutCreatedHook(c.createdIssue, createdPlan, c.createdRollout))
  {
  }

  /** The trace of a successful run, hooks included when supplied. */
  function SuccessTrace(
    project: Project, planCreate: Plan, issueSent: Issue, rolloutSent: Rollout,
    createdIssue: Issue, c: Created, hooks: Option<Hooks>
  ): seq<Step> {
    var hs := hooks.GetOr(Hooks(false, false, false));
    [CreatePlanCall(project.name, planCreate)]
    + HookStep(hs.planCreated, PlanCreatedHook(planCreate))
    + [CreateIssueCall(project.name, issueSent)]
    + HookStep(hs.issueCreated, IssueCreatedHook(createdIssue, c.createdPlan))
    + [CreateRolloutCall(project.name, rolloutSent)]
    + HookStep(hs.rolloutCreated, RolloutCreatedHook(c.createdIssue, c.createdPlan, c.createdRollout))
  }

  /** A successful run makes exactly three creation calls: plan, issue, rollout. */
  lemma SuccessTraceCreateCalls(
    project: Project, planCreate: Plan, issueSent: Issue, rolloutSent: Rollout,
    createdIssue: Issue, c: Created, hooks: Option<Hooks>
  )
    ensures CreateCalls(SuccessTrace(project, planCreate, issueSent, rolloutSent, createdIssue, c, hooks)) == [
              CreatePlanCall(project.name, planCreate),
              CreateIssueCall(project.name, issueSent),
              CreateRolloutCall(project.name, rolloutSent)]
  {
    var hs := hooks.GetOr(Hooks(false, false, false));
    var a := [CreatePlanCall(project.name, planCreate)];
    var h1 := HookStep(hs.planCreated, PlanCreatedHook(planCreate));
    var b := [CreateIssueCall(project.name, issueSent)];
    var h3 := HookStep(hs.issueCreated, IssueCreatedHook(createdIssue, c.createdPlan));
    var d := [CreateRolloutCall(project.name, rolloutSent)];
    var h5 := HookStep(hs.rolloutCreated, RolloutCreatedHook(c.createdIssue, c.createdPlan, c.createdRollout));
    HookHasNoCreateCalls(hs.planCreated, PlanCreatedHook(planCreate));
    HookHasNoCreateCalls(hs.issueCreated, IssueCreatedHook(createdIssue, c.createdPlan));
    HookHasNoCreateCalls(hs.rolloutCreated, RolloutCreatedHook(c.createdIssue, c.createdPlan, c.createdRollout));
    assert CreateCalls(a) == a && CreateCalls(b) == b && CreateCalls(d) == d;
    CreateCallsSkipHooks(a, h1, b, h3, d, h5);
  }

  /** A hook step is never a creation call. */
  lemma HookHasNoCreateCalls(present: bool, step: Step)
    requires !IsCreateCall(step)
    ensures CreateCalls(HookStep(present, step)) == []
  {
  }

  /** Interleaved hook steps drop out of the projection onto creation calls. */
  lemma CreateCallsSkipHooks(a: seq<Step>, h1: seq<Step>, b: seq<Step>, h3: seq<Step>, d: seq<Step>, h5: seq<Step>)
    requires CreateCalls(h1) == [] && CreateCalls(h3) == [] && CreateCalls(h5) == []
    ensures CreateCalls(a + h1 + b + h3 + d + h5) == CreateCalls(a) + CreateCalls(b) + CreateCalls(d)
  {
    CreateCallsAppend(a, h1);
    CreateCallsAppend(a + h1, b);
    CreateCallsAppend(a + h1 + b, h3);
    CreateCallsAppend(a + h1 + b + h3, d);
    CreateCallsAppend(a + h1 + b + h3 + d, h5);
  }

  /** Projecting the creation calls distributes over concatenation. */
  lemma {:induction false} CreateCallsAppend(a: seq<Step>, b: seq<Step>)
    ensures CreateCalls(a + b) == CreateCalls(a) + CreateCalls(b)
    decreases |a|
  {
    if |a| == 0 {
      assert a + b == b;
    } else {
      var head := if IsCreateCall(a[0]) then [a[0]] else [];
      assert (a + b)[0] == a[0];
      assert (a + b)[1..] == a[1..] + b;
      assert CreateCalls(a + b) == head + CreateCalls(a[1..] + b);
      CreateCallsAppend(a[1..], b);
      assert CreateCalls(a) == head + CreateCalls(a[1..]);
    }
  }

  /** A rejected step leaves every earlier step in place: the trace of a failed
      run is the successful prefix followed by the failing call, and no step runs
      after it. */
  lemma FailureKeepsEarlierSteps(
    project: Project, issueCreate: Issue, planCreate: Plan, hooks: Option<Hooks>, svc: CreationServices
  )
    requires svc.createPlan(project.name, planCreate).Ok?
    ensures var r := CreateIssueByPlan(project, issueCreate, planCreate, hooks, svc);
            var plan := svc.createPlan(project.name, planCreate).value;
            r.result.Err? ==>
              && CreatePlanCall(project.name, planCreate) in r.trace
              && r.trace[|r.trace| - 1] in {CreateIssueCall(project.name, issueCreate.(plan := plan.name)),
                                            CreateRolloutCall(project.name, Rollout("", plan.name))}
              && (r.trace[|r.trace| - 1].CreateRolloutCall? ==> CreateIssueCall(project.name, issueCreate.(plan := plan.name)) in r.trace)
  {
    var hs := hooks.GetOr(Hooks(false, false, false));
    var plan := svc.createPlan(project.name, planCreate).value;
    var t1 := Then([CreatePlanCall(project.name, planCreate)], hs.planCreated, PlanCreatedHook(planCreate));
    var rest := IssueStage(project, issueCreate, plan, hs, svc);
    var r := Creation(rest.result, t1 + rest.trace);
    assert CreateIssueByPlan(project, issueCreate, planCreate, hooks, svc) == r;
    assert r.trace[0] == CreatePlanCall(project.name, planCreate);
    if r.result.Err? {
      IssueStageFailure(project, issueCreate, plan, hs, svc);
      assert r.trace[|r.trace| - 1] == rest.trace[|rest.trace| - 1];
      assert r.trace[|t1|] == rest.trace[0];
    }
  }

  /** A failed issue stage ends on the issue call or on the rollout call, and in
      the second case the issue call ran first. */
  lemma IssueStageFailure(
    project: Project, issueCreate: Issue, createdPlan: Plan, hs: Hooks, svc: CreationServices
  )
    requires IssueStage(project, issueCreate, createdPlan, hs, svc).result.Err?
    ensures var r := IssueStage(project, issueCreate, createdPlan, hs, svc);
            var issueCall := CreateIssueCall(project.name, issueCreate.(plan := createdPlan.name));
            && (|r.trace| == 1 || r.trace[|r.trace| - 1] == CreateRolloutCall(project.name, Rollout("", createdPlan.name)))
            && r.trace[0] == issueCall
  {
    var issueSent := issueCreate.(plan := createdPlan.name);
    if svc.createIssue(project.name, issueSent).Ok? {
      var createdIssue := svc.createIssue(project.name, issueSent).value;
      var afterIssue := Then([CreateIssueCall(project.name, issueSent)], hs.issueCreated, IssueCreatedHook(createdIssue, createdPlan));
      var tail := RolloutStage(project, createdPlan, createdIssue, hs, svc);
      assert tail.trace == [CreateRolloutCall(project.name, Rollout("", createdPlan.name))];
    }
  }
}

=== FILE: recent_projects.dfy ===
/** The per-user "recently viewed projects" list: a most-recent-first list of at
    most five project names, and the view that resolves those names to projects
    the current user may still see. Persistence in local storage is left out; the
    stored list is an explicit value passed in and returned. */
module RecentProjects {
  import opened Sequences
  import opened Resources

  /** `MAX_RECENT_PROJECT`. */
  const MaxRecentProject: nat := 5

  /** The invariant the stored list keeps: bounded and duplicate-free. */
  predicate WellFormed(names: seq<string>) {
    |names| <= MaxRecentProject && NoDup(names)
  }

  /** The stored list with the first occurrence of `name` spliced out, if any. */
  function SpliceOut(names: seq<string>, name: string): (r: seq<string>)
    ensures |r| == if name in names then |names| - 1 else |names|
    ensures forall x :: x in r ==> x in names
    ensures NoDup(names) ==> NoDup(r) && name !in r
  {
    var i := FindIndex(names, name);
    if i >= 0 then
      var r := RemoveAt(names, i);
      assert forall k :: 0 <= k < |r| ==> r[k] == names[if k < i then k else k + 1];
      r
    else names
  }

  /** The `if (length > MAX_RECENT_PROJECT) pop()` step: drop the last element
      of a list that grew one past the bound. */
  function PopOverflow(names: seq<string>): (r: seq<string>)
    ensures |names| <= MaxRecentProject + 1 ==> |r| <= MaxRecentProject
    ensures r <= names && |names| - 1 <= |r|
    ensures |names| <= MaxRecentProject ==> r == names
    ensures NoDup(names) ==> NoDup(r)
  {
    if |names| > MaxRecentProject then
      var r := names[..|names| - 1];
      assert NoDup(names) ==> NoDup(r) by {
        if NoDup(names) { NoDupPrefix(names, |names| - 1); }
      }
      r
    else names
  }

  /** `setRecentProject(name)`: ignore the empty name; otherwise splice out the
      first existing occurrence, put `name` in front and pop one element if the
      list grew past the bound. */
  function SetRecentProject(names: seq<string>, name: string): (r: seq<string>)
    ensures name == "" ==> r == names
    ensures name != "" ==> |r| > 0 && r[0] == name
    ensures |names| <= MaxRecentProject ==> |r| <= MaxRecentProject
    ensures NoDup(names) ==> NoDup(r)
    ensures forall x :: x in r ==> x == name || x in names
  {
    if name == "" then names
    else
      var spliced := SpliceOut(names, name);
      var unshifted := [name] + spliced;
      assert NoDup(names) ==> NoDup(unshifted) by {
        if NoDup(names) { NoDupCons(name, spliced); }
      }
      var r := PopOverflow(unshifted);
      assert forall x :: x in r ==> x in unshifted;
      assert r[0] == unshifted[0];
      r
  }

  /** A non-empty name is put in front of the spliced list, which is then popped. */
  lemma SetRecentProjectSteps(names: seq<string>, name: string)
    requires name != ""
    ensures SetRecentProject(names, name) == PopOverflow([name] + SpliceOut(names, name))
    ensures var i := FindIndex(names, name);
            SpliceOut(names, name) == if i >= 0 then RemoveAt(names, i) else names
  {
  }

  /** The entries after the head keep their relative order from before the call. */
  lemma SetRecentProjectKeepsOrder(names: seq<string>, name: string)
    requires name != ""
    ensures IsSubsequence(SetRecentProject(names, name)[1..], names)
  {
    SetRecentProjectSteps(names, name);
    var spliced := SpliceOut(names, name);
    var i := FindIndex(names, name);
    if i >= 0 {
      RemoveAtIsSubsequence(names, i);
    } else {
      SubsequenceRefl(names);
    }
    PoppedTailIsSubsequence(name, spliced, names);
  }

  /** Popping after putting a name in front keeps the rest a subsequence. */
  lemma PoppedTailIsSubsequence(name: string, spliced: seq<string>, names: seq<string>)
    requires IsSubsequence(spliced, names)
    ensures IsSubsequence(PopOverflow([name] + spliced)[1..], names)
  {
    var unshifted := [name] + spliced;
    var r := PopOverflow(unshifted);
    assert unshifted[1..] == spliced;
    if |r| == |unshifted| {
      assert r[1..] == spliced;
    } else {
      assert r[1..] == spliced[..|spliced| - 1];
      PrefixIsSubsequence(spliced, |spliced| - 1);
      SubsequenceTrans(r[1..], spliced, names);
    }
  }

  /** On a list within the bound, every other entry survives a call unless it is
      the old tail and the list was full and did not already hold `name`: only the
      last element can be evicted. */
  lemma SetRecentProjectEvictsOnlyTail(names: seq<string>, name: string, x: string)
    requires |names| <= MaxRecentProject
    requires x in names && x != name
    requires name == "" || name in names || |names| < MaxRecentProject || x != names[|names| - 1]
    ensures x in SetRecentProject(names, name)
  {
    if name != "" {
      SetRecentProjectSteps(names, name);
      var k :| 0 <= k < |names| && names[k] == x;
      var i := FindIndex(names, name);
      if i >= 0 {
        SplicedKeeps(names, i, k);
      } else {
        UnshiftedKeeps(names, name, k);
      }
    }
  }

  /** Splicing out another position and putting a name in front keeps entry `k`
      of a list within the bound. */
  lemma SplicedKeeps(names: seq<string>, i: nat, k: nat)
    requires |names| <= MaxRecentProject && i < |names| && k < |names| && k != i
    ensures names[k] in PopOverflow([names[i]] + RemoveAt(names, i))
  {
    var spliced := RemoveAt(names, i);
    var unshifted := [names[i]] + spliced;
    assert spliced[if k < i then k else k - 1] == names[k];
    assert unshifted[if k < i then k + 1 else k] == names[k];
  }

  /** Putting a new name in front and popping keeps every entry but a full list's
      last one. */
  lemma UnshiftedKeeps(names: seq<string>, name: string, k: nat)
    requires |names| <= MaxRecentProject && k < |names|
    requires |names| < MaxRecentProject || k != |names| - 1
    ensures names[k] in PopOverflow([name] + names)
  {
    var unshifted := [name] + names;
    var r := PopOverflow(unshifted);
    assert unshifted[k + 1] == names[k];
    assert k + 1 < |r|;
    assert r[k + 1] == unshifted[k + 1];
  }

  /** Re-adding the current head leaves a list within the bound unchanged. */
  lemma SetRecentProjectHeadIdempotent(names: seq<string>)
    requires 0 < |names| <= MaxRecentProject
    ensures SetRecentProject(names, names[0]) == names
  {
    if names[0] != "" {
      assert FindIndex(names, names[0]) == 0;
      assert [names[0]] + RemoveAt(names, 0) == names;
    }
  }

  /** Reference definition of the most-recent-first update: `name` followed by all
      other entries, cut to the bound. */
  function MostRecentFirst(names: seq<string>, name: string): seq<string> {
    var rest := Without(names, name);
    var full := [name] + rest;
    if |full| > MaxRecentProject then full[..MaxRecentProject] else full
  }

  /** The entries of `s` other than `x`, in order. */
  function Without(s: seq<string>, x: string): (r: seq<string>)
    ensures x !in r
    ensures forall y :: y in r <==> y in s && y != x
    ensures x !in s ==> r == s
    ensures |r| <= |s|
  {
    if |s| == 0 then []
    else if s[0] == x then Without(s[1..], x)
    else [s[0]] + Without(s[1..], x)
  }

  /** On a duplicate-free list, splicing out the one occurrence removes it entirely. */
  lemma {:induction false} RemoveAtIsWithout(s: seq<string>, i: nat)
    requires i < |s| && NoDup(s)
    ensures RemoveAt(s, i) == Without(s, s[i])
    decreases |s|
  {
    if i == 0 {
      assert s[0] !in s[1..];
      assert RemoveAt(s, 0) == s[1..];
    } else {
      assert NoDup(s[1..]);
      RemoveAtIsWithout(s[1..], i - 1);
      assert s[1..][i - 1] == s[i];
      assert RemoveAt(s, i) == [s[0]] + RemoveAt(s[1..], i - 1);
    }
  }

  /** On a well-formed list the source's splice-unshift-pop update is exactly the
      most-recent-first reference update. */
  lemma SetRecentProjectIsMostRecentFirst(names: seq<string>, name: string)
    requires WellFormed(names) && name != ""
    ensures SetRecentProject(names, name) == MostRecentFirst(names, name)
  {
    SetRecentProjectSteps(names, name);
    var i := FindIndex(names, name);
    if i >= 0 {
      RemoveAtIsWithout(names, i);
    }
    var full := [name] + Without(names, name);
    assert SpliceOut(names, name) == Without(names, name);
    assert |full| <= MaxRecentProject + 1;
  }

  /** Recording a whole history of visits, oldest first. */
  function RecordAll(names: seq<string>, visits: seq<string>): seq<string>
    decreases |visits|
  {
    if |visits| == 0 then names
    else RecordAll(SetRecentProject(names, visits[0]), visits[1..])
  }

  /** Any history of visits keeps the list well-formed, and the latest non-empty
      visit is at the front. */
  lemma {:induction false} RecordAllWellFormed(names: seq<string>, visits: seq<string>)
    requires WellFormed(names)
    ensures WellFormed(RecordAll(names, visits))
    ensures |visits| > 0 && visits[|visits| - 1] != "" ==>
              |RecordAll(names, visits)| > 0 && RecordAll(names, visits)[0] == visits[|visits| - 1]
    decreases |visits|
  {
    if |visits| > 0 {
      var next := SetRecentProject(names, visits[0]);
      RecordAllWellFormed(next, visits[1..]);
      if |visits| == 1 {
        assert visits[1..] == [];
      } else {
        assert visits[1..][|visits[1..]| - 1] == visits[|visits| - 1];
      }
    }
  }

  /** `projectV1Store.getProjectByName` applied to each stored name. */
  function LookUpAll(names: seq<string>, getProjectByName: string -> Project): (r: seq<Project>)
    ensures |r| == |names|
    ensures forall i :: 0 <= i < |names| ==> r[i] == getProjectByName(names[i])
  {
    if |names| == 0 then [] else [getProjectByName(names[0])] + LookUpAll(names[1..], getProjectByName)
  }

  /** The filter of `recentViewProjects`: a valid project name and `bb.projects.get`. */
  predicate Viewable(p: Project, isValidProjectName: string -> bool, hasPermission: PermissionOracle, me: User) {
    isValidProjectName(p.name) && hasPermission(p, me, ProjectsGet)
  }

  /** `recentViewProjects`: the stored names mapped to projects, keeping only the
      viewable ones. It reads the stored list and never writes it. */
  function RecentViewProjects(
    names: seq<string>,
    getProjectByName: string -> Project,
    isValidProjectName: string -> bool,
    hasPermission: PermissionOracle,
    me: User
  ): (r: seq<Project>)
    ensures forall p :: p in r ==> Viewable(p, isValidProjectName, hasPermission, me)
    ensures IsSubsequence(r, LookUpAll(names, getProjectByName))
    ensures forall i :: 0 <= i < |names| ==>
              Viewable(getProjectByName(names[i]), isValidProjectName, hasPermission, me) ==> getProjectByName(names[i]) in r
    decreases |names|
  {
    if |names| == 0 then []
    else
      var p := getProjectByName(names[0]);
      var rest := RecentViewProjects(names[1..], getProjectByName, isValidProjectName, hasPermission, me);
      var all := LookUpAll(names, getProjectByName);
      assert all[0] == p && all[1..] == LookUpAll(names[1..], getProjectByName);
      assert forall i :: 1 <= i < |names| ==> names[i] == names[1..][i - 1];
      if Viewable(p, isValidProjectName, hasPermission, me) then
        assert ([p] + rest)[1..] == rest;
        [p] + rest
      else
        SubsequenceOfTail(rest, all);
        rest
  }

  /** `.filter` keeps every copy of a viewable project and drops every copy of
      the others: each project occurs in the result as often as among the
      looked-up projects when it is viewable, and not at all otherwise. */
  lemma {:induction false} RecentViewProjectsKeepsCopies(
    names: seq<string>,
    getProjectByName: string -> Project,
    isValidProjectName: string -> bool,
    hasPermission: PermissionOracle,
    me: User
  )
    ensures var r := RecentViewProjects(names, getProjectByName, isValidProjectName, hasPermission, me);
            forall p :: multiset(r)[p] ==
              (if Viewable(p, isValidProjectName, hasPermission, me) then multiset(LookUpAll(names, getProjectByName))[p] else 0)
    decreases |names|
  {
    if |names| > 0 {
      RecentViewProjectsKeepsCopies(names[1..], getProjectByName, isValidProjectName, hasPermission, me);
      var q := getProjectByName(names[0]);
      var all := LookUpAll(names, getProjectByName);
      assert all == [q] + LookUpAll(names[1..], getProjectByName);
      assert multiset(all) == multiset([q]) + multiset(LookUpAll(names[1..], getProjectByName));
    }
  }
}

=== FILE: resources.dfy ===
/** Resource types and permission vocabulary shared by the stores. Their full
    definitions (protobuf messages, `@/types` sentinels, `hasProjectPermissionV2`)
    are not part of this model: only the fields the stores read are kept, and the
    permission check is an uninterpreted oracle. */
module Resources {

  /** A project as served by the project store. */
  datatype Project = Project(name: string, title: string)

  /** A user principal. */
  datatype User = User(name: string, email: string)

  /** The permissions the stores consult. */
  datatype Permission =
    | ProjectsGet        // "bb.projects.get"
    | PlansGet           // "bb.plans.get"
    | PlanCheckRunsList  // "bb.planCheckRuns.list"
    | RolloutsGet        // "bb.rollouts.get"
    | TaskRunsList       // "bb.taskRuns.list"

  /** `hasProjectPermissionV2(project, user, permission)`: synchronous and free of
      side effects, so a total function. */
  type PermissionOracle = (Project, User, Permission) -> bool

  /** `EMPTY_ID` and `UNKNOWN_ID` from `@/types`, rendered by `String(...)`. */
  const EmptyUid: string := "0"
  const UnknownUid: string := "-1"

  /** `unknownUser()`: the creator shown when the user store has no match. */
  const UnknownUser: User := User("users/" + UnknownUid, "")

  /** `unknownProject()`: the project shown for an unknown issue. */
  const UnknownProject: Project := Project("projects/" + UnknownUid, "")

  /** `emptyProject()`: the project shown for an empty issue. */
  const EmptyProject: Project := Project("projects/" + EmptyUid, "")
}

=== FILE: sequences.dfy ===
/** Sequence vocabulary shared by the stores: duplicate freedom, order-preserving
    subsequences and the first index of an element (`Array.prototype.findIndex`). */
module Sequences {

  /** No element occurs twice. */
  predicate NoDup<T(==)>(s: seq<T>) {
    forall i, j :: 0 <= i < j < |s| ==> s[i] != s[j]
  }

  /** `a` can be obtained from `b` by deleting elements, keeping the order of the rest. */
  predicate IsSubsequence<T(==)>(a: seq<T>, b: seq<T>)
    decreases |b|
  {
    if |a| == 0 then true
    else if |b| == 0 then false
    else if a[0] == b[0] then IsSubsequence(a[1..], b[1..])
    else IsSubsequence(a, b[1..])
  }

  /** `findIndex(e => e === x)`: the first position holding `x`, or -1. */
  function FindIndex<T(==)>(s: seq<T>, x: T): (i: int)
    ensures -1 <= i < |s|
    ensures i == -1 <==> x !in s
    ensures 0 <= i ==> s[i] == x && x !in s[..i]
  {
    if |s| == 0 then -1
    else if s[0] == x then 0
    else
      var k := FindIndex(s[1..], x);
      if k == -1 then -1
      else
        assert s[..k + 1] == [s[0]] + s[1..][..k];
        k + 1
  }

  /** `splice(i, 1)`: the sequence without position `i`. */
  function RemoveAt<T>(s: seq<T>, i: nat): (r: seq<T>)
    requires i < |s|
    ensures |r| == |s| - 1
    ensures forall k :: 0 <= k < i ==> r[k] == s[k]
    ensures forall k :: i <= k < |r| ==> r[k] == s[k + 1]
  {
    s[..i] + s[i + 1..]
  }

  /** Every sequence is a subsequence of itself. */
  lemma {:induction false} SubsequenceRefl<T>(s: seq<T>)
    ensures IsSubsequence(s, s)
    decreases |s|
  {
    if |s| > 0 {
      SubsequenceRefl(s[1..]);
    }
  }

  /** Deleting an element from the bigger sequence's front keeps a subsequence
      that does not need that element. */
  lemma {:induction false} SubsequenceOfTail<T>(a: seq<T>, b: seq<T>)
    requires |b| > 0
    requires IsSubsequence(a, b[1..])
    ensures IsSubsequence(a, b)
    decreases |b|, 0
  {
    if |a| > 0 && a[0] == b[0] {
      // IsSubsequence(a, b) unfolds to IsSubsequence(a[1..], b[1..]), which follows
      // from dropping a[0] on the left.
      SubsequenceDropHead(a, b[1..]);
    }
  }

  /** Dropping the first element of the smaller sequence keeps it a subsequence. */
  lemma {:induction false} SubsequenceDropHead<T>(a: seq<T>, b: seq<T>)
    requires |a| > 0
    requires IsSubsequence(a, b)
    ensures IsSubsequence(a[1..], b)
    decreases |b|, 1
  {
    if a[0] == b[0] {
      SubsequenceOfTail(a[1..], b);
    } else {
      SubsequenceDropHead(a, b[1..]);
      SubsequenceOfTail(a[1..], b);
    }
  }

  /** Removing position `i` leaves a subsequence. */
  lemma {:induction false} RemoveAtIsSubsequence<T>(s: seq<T>, i: nat)
    requires i < |s|
    ensures IsSubsequence(RemoveAt(s, i), s)
    decreases |s|
  {
    if i == 0 {
      assert RemoveAt(s, 0) == s[1..];
      SubsequenceRefl(s[1..]);
      SubsequenceOfTail(s[1..], s);
    } else {
      assert RemoveAt(s, i) == [s[0]] + RemoveAt(s[1..], i - 1);
      RemoveAtIsSubsequence(s[1..], i - 1);
      assert RemoveAt(s, i)[1..] == RemoveAt(s[1..], i - 1);
    }
  }

  /** A prefix is a subsequence. */
  lemma {:induction false} PrefixIsSubsequence<T>(s: seq<T>, n: nat)
    requires n <= |s|
    ensures IsSubsequence(s[..n], s)
    decreases |s|
  {
    if n > 0 {
      PrefixIsSubsequence(s[1..], n - 1);
      assert s[..n][1..] == s[1..][..n - 1];
    }
  }

  /** Subsequence is transitive. */
  lemma {:induction false} SubsequenceTrans<T>(a: seq<T>, b: seq<T>, c: seq<T>)
    requires IsSubsequence(a, b) && IsSubsequence(b, c)
    ensures IsSubsequence(a, c)
    decreases |c|
  {
    if |a| == 0 {
    } else if b[0] == c[0] {
      if a[0] == b[0] {
        SubsequenceTrans(a[1..], b[1..], c[1..]);
      } else {
        SubsequenceTrans(a, b[1..], c[1..]);
        SubsequenceOfTail(a, c);
      }
    } else {
      SubsequenceTrans(a, b, c[1..]);
      SubsequenceOfTail(a, c);
    }
  }

  /** Putting a fresh element in front keeps a sequence duplicate-free. */
  lemma NoDupCons<T>(x: T, s: seq<T>)
    requires NoDup(s) && x !in s
    ensures NoDup([x] + s)
  {
    forall i, j | 0 <= i < j < |[x] + s|
      ensures ([x] + s)[i] != ([x] + s)[j]
    {
      if i > 0 {
        assert ([x] + s)[i] == s[i - 1] && ([x] + s)[j] == s[j - 1];
      } else {
        assert ([x] + s)[j] == s[j - 1];
      }
    }
  }

  /** A prefix of a duplicate-free sequence is duplicate-free. */
  lemma NoDupPrefix<T>(s: seq<T>, n: nat)
    requires NoDup(s) && n <= |s|
    ensures NoDup(s[..n])
  {
    assert forall k :: 0 <= k < n ==> s[..n][k] == s[k];
  }
}

=== FILE: wrappers.dfy ===
/** Failure-compatible wrappers used throughout the model.
    - Option<T> stands for a TypeScript value that may be `undefined`.
    - Result<T> stands for a remote call that either resolves or rejects. */
module Wrappers {

  datatype Option<+T> = None | Some(value: T) {

    /** The value, or `default` when absent (the `??` operator). */
    function GetOr(default: T): T {
      match this
      case Some(v) => v
      case None => default
    }
  }

  /** Why a remote call was rejected; the transport's own error object is opaque. */
  datatype RpcError = RpcError(code: int, message: string)

  datatype Result<+T> = Ok(value: T) | Err(error: RpcError) {

    predicate IsFailure() {
      Err?
    }

    function PropagateFailure<U>(): Result<U>
      requires Err?
    {
      Err(error)
    }

    function Extract(): T
      requires Ok?
    {
      value
    }
  }

  /** A remote call that resolves with nothing of interest, or rejects. */
  datatype Outcome = Pass | Fail(error: RpcError)
}
